=== FILE: README.md ===
# Culkan sessions and tiled matrix products in Dafny

This project models two parts of a small GPU/CPU computing repository.

**The Culkan library** (`culkan/culkan.h`) is a thin C layer over Vulkan compute. A session goes
through these steps:

- It is created with `culkanInit`:
  - it creates an instance and enumerates the devices;
  - it checks the requested invocation count against the device limit;
  - it picks a compute queue family and creates the logical device;
  - it allocates one buffer per binding, in the least allowed host-visible memory type, or in
    type 0 when no allowed type is host-visible (whether or not type 0 is);
  - it checks the heap sizes.
- It is wired up with `culkanSetup`: descriptor layout, pool, set and writes, shader module,
  pipeline, command pool, a recorded dispatch, and a fence.
- It is fed and read with `culkanWriteBinding` and `culkanReadBinding`.
- `culkanRun` submits the recorded dispatch.

The model is a state machine over a mocked device. A native Vulkan call is an opaque transition
whose status comes from a `Platform` table. Every library check either continues or ends the
process with its diagnostics (`Step.Exit`). Three undefined behaviours of the C code are marked
`Step.Undefined`: reading the first device of an empty device list, copying into a mapping past
its allocation, and running without a recorded command buffer or with a destroyed fence. Other
undefined or invalid uses that the library does not notice are listed under "Left out".

The model keeps the library's quirks as written, and lemmas exhibit each one:

- The write path treats an out-of-range slot as a recorded, recoverable error. The read path
  treats the same slot as fatal.
- `culkan->family` stays 0. Buffers, the command pool and the queue lookup use it, while the
  device queue is created on the first compute family.
- Descriptor writes always say `STORAGE_BUFFER`, whatever the binding's declared type.
- The invocation product is compared modulo 2^32.
- The library code in a freshly allocated session is never initialised.
- The fence is destroyed after every run, so a second run needs a new setup.

**The matrix products** (`src/matrix_product.hpp`) update C in place as
`C(i,j) := C(i,j) * (beta + Σ_k alpha·A(i,k)·B(k,j))`. The model covers three loop nests:

- the reference loop nest;
- the row-tiled variant `_i`;
- the row×column-tiled variant `_ij`.

Each of them returns a new immutable matrix. They are proved equal, over exact real arithmetic
and for every block size ≥ 1, to one functional specification (`MatrixSpec.Updated`). This
equality rests on three facts:

- the tile arithmetic (`Tiling`): every row lies in exactly one tile, and a trailing tile can be
  empty;
- alpha factors out of the sum;
- a frontier argument showing that every cell is multiplied exactly once.

The tolerance comparison `matrix_are_equal` is modelled too.

Files:

| file | contents |
|---|---|
| `results.dfy` | the result channels, the error-code names and the check macros |
| `capability.dfy` | the memory-type and queue-family choices, and the invocation and memory checks |
| `session.dfy` | the session operations |
| `session_lemmas.dfy` | properties that relate several session operations |
| `tiling.dfy` | the tile arithmetic |
| `matrix_spec.dfy` | the update specification and the fixed example |
| `matrix_product.dfy` | the loop nests and the equality check |

## Model

| member | source | states |
|---|---|---|
| Results.ErrCodeToString | culkan/culkan.h:285-300 | Each of the five declared codes gets exactly its own name ("No error", "Out of bounds binding", "File not found", "Too many invocations", "Not enough memory"), and the name is "Unknown error" exactly for codes outside the enum |
| Results.ErrCodeNamesDistinct | culkan/culkan.h:285-300 | Distinct declared codes print under distinct names |
| Results.CheckResult | culkan/culkan.h:307-320 | The check exits exactly when either channel fails. It reports the native status iff that status is not VK_SUCCESS, and the library code iff it is not NO_ERROR, native first. It reports nothing else, and each failing channel exactly once |
| Results.Check | culkan/culkan.h:54-56 | culkanCheckError continues with its value iff the result did not fail; otherwise it exits with exactly the reports of the check |
| Results.CheckWithMessage | culkan/culkan.h:63-70 | The custom message is printed before the reports iff the library code is an error; execution continues iff the result did not fail |
| Capability.MemoryTypeFrom | culkan/culkan.h:443-450 | The scan from an index returns the first suitable (allowed and host-visible) memory type at or after it, or the type count when there is none |
| Capability.PickMemoryType | culkan/culkan.h:438-450 | The chosen index is the least memory type that the buffer allows and that is host-visible; it is 0 when no type qualifies |
| Capability.MemoryTypeChoiceUnique | culkan/culkan.h:438-450 | The memory-type choice is determined: two indices that both meet it are equal |
| Capability.ComputeFamilyFrom | culkan/culkan.h:619-622 | The family loop from an index stops at the first compute-capable family at or after it, or at the family count |
| Capability.FirstComputeFamily | culkan/culkan.h:619-627 | The loop ends before the family count iff some family supports compute, and then on the least such family |
| Capability.RequestedInvocations | culkan/culkan.h:564-566 | The compared invocation count equals x·y·z whenever that product fits in 32 bits |
| Capability.CheckInvocations | culkan/culkan.h:564-575 | The check continues, with the result untouched, iff the requested count is at most the device limit. Otherwise it exits with the invocation message first and a TOO_MANY_INVOCATIONS report |
| Capability.HeapBigEnoughFrom | culkan/culkan.h:544-550 | The inner loop says "big enough" iff no remaining binding requires more than the heap |
| Capability.MemoryCheckFrom | culkan/culkan.h:543-560 | The heap loop never touches vkResult. It sets NOT_ENOUGH_MEMORY if some remaining heap is too small for some binding, and leaves the result alone if none is |
| Capability.CheckForEnoughMemory | culkan/culkan.h:541-562 | The library code becomes NOT_ENOUGH_MEMORY when some heap is smaller than some binding's requirement; otherwise the result is unchanged and the process continues |
| Session.Truncate32 | culkan/culkan.h:366-379 | A size passed as uint32_t is unchanged when it fits in 32 bits |
| Session.ToUsageFlags | culkan/culkan.h:502-511 | Storage (and output) bindings get exactly the storage usage bit, uniform bindings exactly the uniform bit, and every other type gets no usage |
| Session.CheckedCalls | culkan/culkan.h:54-56 | A run of checked native calls gets through iff the library code is NO_ERROR and every status succeeds. A pending library error makes the first check exit with that error reported |
| Session.CreateVariable | culkan/culkan.h:430-462 | The variable keeps the binding's size, the driver's requirements and the given family. Its usage follows the declared type. The buffer size and descriptor range are the size modulo 2^32, so unchanged when it fits. The descriptor covers the buffer from offset 0. The memory type is the least allowed host-visible one, or 0. The cached layout entry and pool size say STORAGE, one descriptor, compute stage, whatever the declared type |
| Session.CreateVariables | culkan/culkan.h:514-527 | The allocation loop builds slot i from binding i, its requirements and the given family, one variable per binding. This only carries CreateVariable's contract over to every slot for Init |
| Session.AllocationChecks | culkan/culkan.h:430-454 | Per binding, the buffer, allocate and bind statuses are each checked without the library code. The loop gets through iff all three succeed, and it keeps the library code |
| Session.OpenDevice | culkan/culkan.h:577-653 | The first half of init succeeds iff the initial library code is NO_ERROR, the instance and device calls succeed, a device exists, the request is within device 0's limit, and device 0 has a compute family. With a clean code and successful instance calls, an empty device list is undefined, because device 0 is read from it (lines 530-538). A garbage initial library code ends init at its first check. On success: all instance and device calls succeeded, device 0 is used, the request is within its limit, and the queue family is the first compute family. With no compute family, exactly "No compute queue family found" is printed before exit |
| Session.Init | culkan/culkan.h:577-667 | Init succeeds iff the first half does and, when there is a binding, buffer creation, allocation and binding succeed. With a clean code and successful instance calls, an empty device list is undefined. On success the session is well formed. Family is 0, and the device queue is on the first compute family. vkResult is success, and the library code is NOT_ENOUGH_MEMORY exactly when some heap is too small. Each slot has its driver requirements, the least allowed host-visible memory type (or type 0 when there is none), usage from its type, and buffer family 0. Each slot's variable is exactly what createGPUVariable builds for it with family 0. The shader path is kept for setup's diagnostics. Nothing is assembled and no fence exists |
| Session.Allocated | culkan/culkan.h:577-667 | The session init returns is well formed. It keeps the layout, shader path, invocations, result, device and device queue family, with culkan->family 0. Its variables are the allocation loop's, each slot's memory has the driver's required size, and nothing is assembled or fenced |
| Session.GetBinding | culkan/culkan.h:464-470 | An in-range slot yields its variable. An out-of-range slot exits with the unknown-Vulkan-error and "Out of bounds binding" reports |
| Session.WriteVariable | culkan/culkan.h:472-477 | The write exits iff the map status fails. On success the first sizeOfVar bytes come from the source, the rest of the allocation is kept, and only vkResult changes, to the map status |
| Session.ReadVariable | culkan/culkan.h:487-492 | The read exits iff the map status fails. On success it yields exactly the first sizeOfVar bytes of the memory, and only vkResult changes |
| Session.WriteBinding | culkan/culkan.h:479-485 | An out-of-range slot only records (VK_ERROR_UNKNOWN, OUT_OF_BOUNDS_BINDING) and returns. An in-range write exits iff the map status fails, and succeeds iff the map succeeds and the slot's size fits its allocation. It replaces the slot's first sizeOfVar bytes and leaves its tail and every other slot unchanged. Only vkResult is overwritten, and ckResult is kept |
| Session.ReadBinding | culkan/culkan.h:494-500 | An out-of-range slot ends the process. An in-range read exits iff the map status fails, and succeeds iff the map succeeds and the slot's size fits its allocation. It then yields the slot's first sizeOfVar bytes and overwrites only vkResult |
| Session.Setup | culkan/culkan.h:669-828 | Setup succeeds iff the library code is NO_ERROR, the shader file is read whole and is not empty, and every checked call succeeds. The pipeline then has one layout and pool entry per slot with the declared type, always-STORAGE writes, the command pool and queue on culkan->family, one 1×1×1 dispatch, and a live fence. A shader that is missing, short or empty exits with the path and FILE_NOT_FOUND |
| Session.SetupChecks | culkan/culkan.h:691-825 | The checked steps of setup, in order: the four layout calls, the shader read, then the five pipeline calls. They get through iff the starting library code is NO_ERROR, the shader is read whole and not empty, and every status succeeds, and they then leave a clean result. With the layout calls passing, a shader that is not read exits with exactly the path message and FILE_NOT_FOUND |
| Session.Assemble | culkan/culkan.h:671-815 | The pipeline meets AssembledFor: the layout loop (673-681) and pool loop (698-703) give one entry per slot with the declared type, the write loop (728-731) gives per-slot STORAGE writes with the slot's buffer info, one set, the command pool and queue on culkan->family, and a 1x1x1 dispatch. It records the shader size |
| Session.OpenShader | culkan/culkan.h:397-415 | The read succeeds iff the file opens, is not empty and is read whole (fread of one item returns 1). Otherwise it exits with the path first and FILE_NOT_FOUND. A successful read resets the library code to NO_ERROR |
| Session.Run | culkan/culkan.h:830-849 | A run never reports an error. It is undefined when no command buffer is recorded or the fence is not live. Otherwise it installs the shader's effect and destroys the fence |
| SessionLemmas.WriteThenRead | culkan/culkan.h:472-500 | Whenever the slot's size fits its allocation, writing a slot and reading it back (both maps succeeding) returns the first sizeOfVar bytes of the source |
| SessionLemmas.WriteKeepsOtherSlots | culkan/culkan.h:479-485 | When both slots' sizes fit their allocations, writing one slot does not change what a read of any other slot returns |
| SessionLemmas.OutOfRangeAsymmetry | culkan/culkan.h:479-500 | The same out-of-range slot is recorded and survived by a write but ends the process on a read |
| SessionLemmas.OutOfRangeWriteFailsNextSetup | culkan/culkan.h:479-485 | The error left by an out-of-range write makes the next setup exit |
| SessionLemmas.FenceLifecycle | culkan/culkan.h:818-849 | After a setup the first run succeeds and destroys the fence. A second run without a new setup is undefined |
| SessionLemmas.SetupRearms | culkan/culkan.h:818-849 | A fresh setup after a destroyed fence makes the next run succeed, and that run changes only memory and fence |
| SessionLemmas.RunBeforeSetup | culkan/culkan.h:830-849 | Running straight after init, before setup, is undefined |
| SessionLemmas.UniformSlotWrittenAsStorage | culkan/culkan.h:326-341 | For a uniform slot, the descriptor write's type differs from the layout entry's type |
| SessionLemmas.QueueFamilyMismatch | culkan/culkan.h:611-634 | When family 0 cannot compute, the command pool and queue use family 0 while the device queue was created on another family |
| SessionLemmas.InvocationProductWraps | culkan/culkan.h:564-566 | 2048×2048×2048 invocations wrap to 0 and pass a limit of 1024 |
| SessionLemmas.InvocationLimitExample | culkan/culkan.h:564-575 | 1024×1×1 passes a limit of 1024 and 1025×1×1 does not |
| SessionLemmas.ShortHeapFailsSetup | culkan/culkan.h:541-562 | A heap smaller than some binding's requirement makes the later setup exit |
| SessionLemmas.TypicalSession | culkan/culkan.h:577-828 | On a one-device platform where every call succeeds, init with one storage binding succeeds with a clean result. Setup then succeeds with a 100-byte shader and exits with an empty one |
| SessionLemmas.UninitialisedResultAbortsInit | culkan/culkan.h:604-605 | A garbage library code in the never-initialised result makes init exit at its first check |
| Tiling.QuotientUnique | src/matrix_product.hpp:56-59 | The only tile whose range [t·bs, t·bs+bs) contains x is x / bs |
| Tiling.TileCountIsQuotientPlusOne | src/matrix_product.hpp:56 | (m + bs) / bs row tiles is exactly m / bs + 1 |
| Tiling.TileStartInRange | src/matrix_product.hpp:56-59 | Every launched tile starts at or before row m |
| Tiling.TilesCoverRows | src/matrix_product.hpp:56-59 | The launched tiles together reach past the last row |
| Tiling.QuotientBelowTileCount | src/matrix_product.hpp:56-59 | The tile x / bs of a row x below m is one of the (m + bs) / bs launched tiles |
| Tiling.InExactlyOneTile | src/matrix_product.hpp:56-59 | Every row below m lies in a launched tile, namely tile row / bs, and in no other tile |
| Tiling.EmptyTileIsTrailing | src/matrix_product.hpp:56-59 | A launched tile is empty iff it is the last one and bs divides m |
| Tiling.CellInExactlyOneTile | src/matrix_product.hpp:78-82 | Every cell (i, j) lies in exactly one (row tile, column tile) pair, namely (i / bs, j / bs) |
| MatrixSpec.AlphaFactoring | src/matrix_product.hpp:41-64 | The reference's Σ alpha·a·b equals the tiled variants' alpha·Σ a·b |
| MatrixSpec.UpdatedByCells | src/matrix_product.hpp:43 | A matrix of C's shape holding the updated value in every cell is the specified result |
| MatrixSpec.FixedExample | tests/check_same_results.cpp:21-99 | With α=2 and β=−1 the update of the test's C is [[2793,3180,3591,4026],[7935,9000,10125,11310]] |
| MatrixSpec.CloseToItself | src/matrix_product.hpp:135-144 | Every matrix is within the 1e-10 tolerance of itself, so identical results pass the comparison |
| MatrixProduct.AlphaDotProduct | src/matrix_product.hpp:39-42 | The reference's k loop accumulates Σ alpha·A(i,k)·B(k,j), which equals alpha times the dot product |
| MatrixProduct.DotProduct | src/matrix_product.hpp:60-63 | The tiled k loop accumulates the dot product of row i of A and column j of B |
| MatrixProduct.StepCell | src/matrix_product.hpp:64 | The next cell still holds C's value before it is multiplied, and updating it extends the updated region by exactly that cell |
| MatrixProduct.ReferenceRow | src/matrix_product.hpp:37-44 | One row iteration of the reference updates exactly row i, each cell once |
| MatrixProduct.MatrixProductReference | src/matrix_product.hpp:29-46 | Every cell becomes C(i,j)·(beta + alpha·Σ_k A(i,k)·B(k,j)); the result has C's shape and is the specified update |
| MatrixProduct.BlockedCell | src/matrix_product.hpp:60-64 | The tiled cell update C(i,j) *= beta + alpha·acc advances the updated region by one cell |
| MatrixProduct.BlockedIColumn | src/matrix_product.hpp:59-65 | One column of a row tile updates that column's cells in the tile, each once |
| MatrixProduct.BlockedIRowTile | src/matrix_product.hpp:57-66 | One row tile of `_i` takes the updated region from the tile's first row to its clamped end |
| MatrixProduct.MatrixProductBlockedI | src/matrix_product.hpp:48-68 | For every block size ≥ 1, `_i` yields exactly the reference update |
| MatrixProduct.BlockedIJTile | src/matrix_product.hpp:81-89 | One square tile of `_ij` updates its cells, rows outer and columns inner, each once |
| MatrixProduct.BlockedIJRowTile | src/matrix_product.hpp:79-90 | The column tiles of one row tile of `_ij` together update the whole row tile once |
| MatrixProduct.MatrixProductBlockedIJ | src/matrix_product.hpp:70-92 | For every block size ≥ 1, `_ij` yields exactly the reference update |
| MatrixProduct.MatrixAreEqual | src/matrix_product.hpp:128-145 | The result is false when the dimensions differ, and otherwise true iff every entry pair is within 1e-10 |
| MatrixProduct.CheckSameResults | tests/check_same_results.cpp:160-184 | For every conformable shape, every alpha and beta, and every block size ≥ 1, matrix_are_equal accepts both the `_i` and the `_ij` result against the reference |

## Left out

**Culkan library**

- Vulkan itself: every checked native call is an opaque status. The statuses of init and setup
  come from the `Platform` table, where a missing entry means success. The vkMapMemory status of
  a write or read (lines 473, 488) is a parameter of that call instead, and it is checked.
  Handles, create-info structures and their pNext/sType fields carry no checked behaviour. The
  unchecked calls have no modelled effect: queue submit/wait, vkUpdateDescriptorSets, command
  recording, vkUnmapMemory and device queries.
- Per-binding calls share one status for every binding. The table is per call kind, so "the
  third buffer fails to allocate" is not expressible. Only "buffer allocation fails" is.
- Host allocation: `culkanMalloc` and its `culkanCheckAllocation` are assumed to succeed.
  VK_ERROR_OUT_OF_HOST_MEMORY is defined but never produced.
- `culkanDestroy` and the free helpers: they release memory only.
- Leaks are not modelled: the unused uniform pool-size entry (line 695), the per-run
  `commandBuffers` allocation (line 831), the buffers of variables copied by value.
- The diagnostic text: only the message and report kinds are kept, not file/line or the
  formatting, and not the heap message built at line 558, which is never printed.
- Capability.CheckForEnoughMemory: the heap message at line 558 reads `culkan->variables[heap_idx]`.
  That read is out of bounds, and so undefined, when a short heap's index is not below the
  binding count. The model does not mark this case `Step.Undefined`; it only sets
  NOT_ENOUGH_MEMORY.
- Session.Run: two invalid uses set up earlier are not marked `Step.Undefined`, and Run returns
  `Done` for them. The queue handle is fetched from family 0 (lines 611, 827), while the only
  device queue was created on the first compute family (line 634); the two differ when family 0
  cannot do compute (`QueueFamilyMismatch`). The descriptor writes say STORAGE (line 335), while
  the layout entry of a uniform slot says UNIFORM (line 676) (`UniformSlotWrittenAsStorage`).
- Session.OpenShader: an empty shader file asks `culkanMalloc` for 0 bytes first. The model
  takes the common non-NULL result of `malloc(0)`, so the exit comes from the fread check with
  FILE_NOT_FOUND. A NULL result would exit earlier with VK_ERROR_OUT_OF_HOST_MEMORY.
- The shader file: it is a `ShaderFile` outcome (missing, short read, loaded with a size). Its
  contents and what the compute shader does are supplied to `Run` as the memory after the run.
  Fresh device memory is modelled as zeros.
- Session.Init: the `culkanCheckError` after the allocation loop (line 659) is not a separate
  step. Every failure it could catch has already ended the process, so it never fires.
- Capability.RequestedInvocations: signed overflow of `x*y*z` in C `int` is undefined behaviour.
  The model takes the wrap-around that common compilers show and compares the product modulo
  2^32.
- The benchmarks, profiling drivers and scripts are not part of this model. They call the
  library, and the repeated runs after one setup are captured by `FenceLifecycle`.

**Matrix products**

- Floating point: entries are reals, so the equality of the reference and the tiled variants is
  exact. With doubles it holds only up to rounding, which is what `matrix_are_equal`'s EPS
  absorbs.
- `matrix_init` and `drand48`: random initialisation is not modelled.
- Kokkos `parallel_for` becomes a sequential loop. The iterations write disjoint rows, so the
  order does not affect the result.
- The Kokkos views' memory layouts (LayoutRight/LayoutLeft): they change addressing only.
- `matrix_product_cache_blocked_ijk`: the test driver never runs it, and its inner loop shadows
  `k` and recomputes the full dot product.
- `matrix_print` and the mismatch printing in `matrix_are_equal`: output only.
- The GPU-versus-CPU test and the Kokkos initialisation are not part of this model.
- MatrixProduct.MatrixProductBlockedI and MatrixProduct.MatrixProductBlockedIJ: the block size is
  required to be at least 1. The source divides by it and never checks it.
- Aliasing: C is updated in place (lines 43, 64, 87), and the model takes A, B and C as separate
  values. A call that passes the same view as C and as A or B is not modelled: there, earlier
  cell updates would feed later dot products.

=== FILE: capability.dfy ===
/**
  Capability negotiation of the Culkan library (culkan/culkan.h): the choice
  of a memory type for each buffer, the choice of a compute queue family, and
  the two admission checks run by culkanInit.

  The physical device is reduced to the tables these decisions read.
 */
module Capability {
  import opened Results

  type u16 = x: int | 0 <= x < 0x1_0000
  type u32 = x: int | 0 <= x < 0x1_0000_0000

  // Vulkan constants the decisions test against.
  const VK_MAX_MEMORY_TYPES: nat := 32
  const VK_MEMORY_PROPERTY_HOST_VISIBLE_BIT: bv32 := 0x2
  const VK_QUEUE_COMPUTE_BIT: bv32 := 0x2

  /** The first enumerated physical device, as far as the library looks at it. */
  datatype Device = Device(
    memoryTypeFlags: seq<bv32>,         // propertyFlags of each memory type; memoryTypeCount is the length
    heapSizes: seq<nat>,                // size of each memory heap; memoryHeapCount is the length
    queueFamilyFlags: seq<bv32>,        // queueFlags of each queue family
    maxComputeWorkGroupInvocations: u32)
  {
    /** VkPhysicalDeviceMemoryProperties holds at most 32 memory types. */
    predicate Valid() {
      |memoryTypeFlags| <= VK_MAX_MEMORY_TYPES
    }
  }

  // ---------------------------------------------------------------------
  // Memory-type selection (createGPUVariable)
  // ---------------------------------------------------------------------

  /** Bit `i` of a buffer's memoryTypeBits allows memory type `i`. */
  predicate AllowsType(typeBits: bv32, i: nat)
    requires i < 32
  {
    typeBits & (1 << i) != 0
  }

  /** Memory type `i` is allowed for the buffer and visible to the host. */
  predicate SuitableMemoryType(typeBits: bv32, flags: seq<bv32>, i: nat)
    requires i < |flags| <= 32
  {
    AllowsType(typeBits, i) && flags[i] & VK_MEMORY_PROPERTY_HOST_VISIBLE_BIT != 0
  }

  /** The memory type the library should pick: the least suitable one, or 0 when none is suitable. */
  predicate IsMemoryTypeChoice(typeBits: bv32, flags: seq<bv32>, r: nat)
    requires |flags| <= 32
  {
    if exists k :: 0 <= k < |flags| && SuitableMemoryType(typeBits, flags, k) then
      r < |flags| && SuitableMemoryType(typeBits, flags, r)
      && forall k :: 0 <= k < r ==> !SuitableMemoryType(typeBits, flags, k)
    else
      r == 0
  }

  /** The search loop, from index `from` on; |flags| when nothing from there is suitable. */
  function MemoryTypeFrom(typeBits: bv32, flags: seq<bv32>, from: nat): (r: nat)
    requires |flags| <= 32 && from <= |flags|
    ensures from <= r <= |flags|
    ensures r < |flags| ==> SuitableMemoryType(typeBits, flags, r)
    ensures forall k :: from <= k < r ==> !SuitableMemoryType(typeBits, flags, k)
    decreases |flags| - from
  {
    if from == |flags| then |flags|
    else if SuitableMemoryType(typeBits, flags, from) then from
    else MemoryTypeFrom(typeBits, flags, from + 1)
  }

  /** memoryTypeIndex starts at 0 and is overwritten by the first suitable type, if any. */
  function PickMemoryType(typeBits: bv32, flags: seq<bv32>): (r: nat)
    requires |flags| <= 32
    ensures IsMemoryTypeChoice(typeBits, flags, r)
  {
    var i := MemoryTypeFrom(typeBits, flags, 0);
    if i == |flags| then 0 else i
  }

  /** The choice is determined: at most one index meets IsMemoryTypeChoice. */
  lemma MemoryTypeChoiceUnique(typeBits: bv32, flags: seq<bv32>, r1: nat, r2: nat)
    requires |flags| <= 32
    requires IsMemoryTypeChoice(typeBits, flags, r1) && IsMemoryTypeChoice(typeBits, flags, r2)
    ensures r1 == r2
  {
  }

  // ---------------------------------------------------------------------
  // Queue-family selection (culkanInit)
  // ---------------------------------------------------------------------

  predicate SupportsCompute(flags: seq<bv32>, i: nat)
    requires i < |flags|
  {
    flags[i] & VK_QUEUE_COMPUTE_BIT != 0
  }

  /** `q` is the least compute-capable queue family. */
  predicate IsFirstComputeFamily(flags: seq<bv32>, q: nat) {
    q < |flags| && SupportsCompute(flags, q) && forall k :: 0 <= k < q ==> !SupportsCompute(flags, k)
  }

  /** The while loop over families from `from`; |flags| when none from there supports compute. */
  function ComputeFamilyFrom(flags: seq<bv32>, from: nat): (r: nat)
    requires from <= |flags|
    ensures from <= r <= |flags|
    ensures r < |flags| ==> SupportsCompute(flags, r)
    ensures forall k :: from <= k < r ==> !SupportsCompute(flags, k)
    decreases |flags| - from
  {
    if from == |flags| then |flags|
    else if SupportsCompute(flags, from) then from
    else ComputeFamilyFrom(flags, from + 1)
  }

  /** The family index the loop ends on: the first compute family, or the family count when there is none. */
  function FirstComputeFamily(flags: seq<bv32>): (r: nat)
    ensures r <= |flags|
    ensures r < |flags| <==> exists k :: 0 <= k < |flags| && SupportsCompute(flags, k)
    ensures r < |flags| ==> IsFirstComputeFamily(flags, r)
  {
    ComputeFamilyFrom(flags, 0)
  }

  // ---------------------------------------------------------------------
  // Invocation check (culkanCheckInvocations)
  // ---------------------------------------------------------------------

  datatype Invocations = Invocations(x: u16, y: u16, z: u16)

  /**
    The requested invocation count as the comparison sees it: x*y*z is
    computed in C `int` and compared against a uint32, which converts it to
    unsigned. With the wrap-around that signed overflow shows on common
    compilers, the value compared is the true product modulo 2^32.
   */
  function RequestedInvocations(inv: Invocations): (n: u32)
    ensures inv.x * inv.y * inv.z < 0x1_0000_0000 ==> n == inv.x * inv.y * inv.z
  {
    var xy := inv.x * inv.y;
    assert 0 <= xy;
    var product := xy * inv.z;
    assert 0 <= product;
    product % 0x1_0000_0000
  }

  /**
    culkanCheckInvocations: when the device limit is below the request, the
    library code becomes TOO_MANY_INVOCATIONS and the check ends the process;
    otherwise the result is left untouched.
   */
  function CheckInvocations(maxInvocations: u32, inv: Invocations, r: CulkanResult): (out: Step<CulkanResult>)
    ensures out.Done? <==> RequestedInvocations(inv) <= maxInvocations
    ensures out.Done? ==> out.value == r
    ensures out.Exit? ==> |out.reports| > 0 && out.reports[0] == InvocationMessage(maxInvocations, RequestedInvocations(inv))
    ensures out.Exit? ==> CulkanError(TOO_MANY_INVOCATIONS, "Too many invocations") in out.reports
    ensures !out.Undefined?
  {
    var requested := RequestedInvocations(inv);
    if maxInvocations < requested then
      var failed := r.(ckResult := TOO_MANY_INVOCATIONS);
      CheckWithMessage(failed, InvocationMessage(maxInvocations, requested), failed)
    else
      Done(r)
  }

  // ---------------------------------------------------------------------
  // Memory check (culkanCheckForEnoughMemory)
  // ---------------------------------------------------------------------

  /** Some heap is smaller than some binding's required allocation size. */
  predicate MemoryShortfall(heapSizes: seq<nat>, required: seq<nat>) {
    exists h, b :: 0 <= h < |heapSizes| && 0 <= b < |required| && heapSizes[h] < required[b]
  }

  /** The inner loop over bindings, from `b` on, with its early break. */
  function HeapBigEnoughFrom(heapSize: nat, required: seq<nat>, b: nat): (ok: bool)
    requires b <= |required|
    ensures ok <==> forall k :: b <= k < |required| ==> required[k] <= heapSize
    decreases |required| - b
  {
    if b == |required| then true
    else if heapSize < required[b] then false
    else HeapBigEnoughFrom(heapSize, required, b + 1)
  }

  /** The outer loop over heaps, from `h` on. */
  function MemoryCheckFrom(heapSizes: seq<nat>, required: seq<nat>, h: nat, r: CulkanResult): (r': CulkanResult)
    requires h <= |heapSizes|
    ensures r'.vkResult == r.vkResult
    ensures r'.ckResult == r.ckResult || r'.ckResult == NOT_ENOUGH_MEMORY
    ensures (exists hh, b :: h <= hh < |heapSizes| && 0 <= b < |required| && heapSizes[hh] < required[b]) ==>
              r'.ckResult == NOT_ENOUGH_MEMORY
    ensures (forall hh, b :: h <= hh < |heapSizes| && 0 <= b < |required| ==> required[b] <= heapSizes[hh]) ==>
              r' == r
    decreases |heapSizes| - h
  {
    if h == |heapSizes| then r
    else
      var next := if HeapBigEnoughFrom(heapSizes[h], required, 0) then r else r.(ckResult := NOT_ENOUGH_MEMORY);
      MemoryCheckFrom(heapSizes, required, h + 1, next)
  }

  /**
    culkanCheckForEnoughMemory: the library code becomes NOT_ENOUGH_MEMORY
    exactly when some heap is smaller than some binding's requirement; the
    check itself never ends the process.
   */
  function CheckForEnoughMemory(heapSizes: seq<nat>, required: seq<nat>, r: CulkanResult): (r': CulkanResult)
    ensures r'.vkResult == r.vkResult
    ensures MemoryShortfall(heapSizes, required) ==> r'.ckResult == NOT_ENOUGH_MEMORY
    ensures !MemoryShortfall(heapSizes, required) ==> r' == r
  {
    MemoryCheckFrom(heapSizes, required, 0, r)
  }
}

=== FILE: matrix_product.dfy ===
/**
  The loop nests of src/matrix_product.hpp, run sequentially over immutable
  matrices: each product returns the updated C.

  The Kokkos parallel_for over rows (reference) or row tiles (blocked
  variants) becomes an ordinary outer loop; the iterations touch disjoint
  rows, so the order does not change the result.
 */
module MatrixProduct {
  import opened Tiling
  import opened MatrixSpec

  /** The reference's inner k loop: acc += alpha * A(i,k) * B(k,j). */
  method AlphaDotProduct(alpha: real, A: Matrix, B: Matrix, i: nat, j: nat) returns (acc: real)
    requires A.Valid() && B.Valid() && A.cols == B.rows && i < A.rows && j < B.cols
    ensures acc == AlphaDot(alpha, A, B, i, j, A.cols)
    ensures acc == alpha * Dot(A, B, i, j, A.cols)
  {
    acc := 0.0;
    var k := 0;
    while k < A.cols
      invariant 0 <= k <= A.cols
      invariant acc == AlphaDot(alpha, A, B, i, j, k)
    {
      acc := acc + alpha * A.cells[i][k] * B.cells[k][j];
      k := k + 1;
    }
    AlphaFactoring(alpha, A, B, i, j, A.cols);
  }

  /** The blocked variants' inner k loop: acc += A(i,k) * B(k,j). */
  method DotProduct(A: Matrix, B: Matrix, i: nat, j: nat) returns (acc: real)
    requires A.Valid() && B.Valid() && A.cols == B.rows && i < A.rows && j < B.cols
    ensures acc == Dot(A, B, i, j, A.cols)
  {
    acc := 0.0;
    var k := 0;
    while k < A.cols
      invariant 0 <= k <= A.cols
      invariant acc == Dot(A, B, i, j, k)
    {
      acc := acc + A.cells[i][k] * B.cells[k][j];
      k := k + 1;
    }
  }

  /**
    How far a loop nest has got through C, in the order the blocked loops
    walk it: every row above `lo`; inside the current row tile [lo, hi) every
    column below `colLo`; inside the current column tile [colLo, colHi) the
    rows from `lo` up to `row`; and in row `row` the columns from `colLo` up
    to `col`.
   */
  datatype Frontier = Frontier(lo: int, hi: int, colLo: int, colHi: int, row: int, col: int) {
    predicate Covers(r: int, c: int) {
      || r < lo
      || (lo <= r < hi && c < colLo)
      || (lo <= r < row && colLo <= c < colHi)
      || (r == row && colLo <= c < col)
    }
  }

  /** The frontier after the first `rows` rows are finished. */
  function RowsDone(rows: int): Frontier {
    Frontier(rows, rows, 0, 0, rows, 0)
  }

  /** Covered cells hold their updated value and the rest still hold C's; the shape is C's. */
  ghost predicate UpdatedOn(alpha: real, A: Matrix, B: Matrix, beta: real, C: Matrix, cells: seq<seq<real>>, f: Frontier)
    requires Conformable(A, B, C)
  {
    |cells| == C.rows
    && (forall r :: 0 <= r < C.rows ==> |cells[r]| == C.cols)
    && forall r, c :: 0 <= r < C.rows && 0 <= c < C.cols ==>
         cells[r][c] == if f.Covers(r, c) then UpdatedCell(alpha, A, B, beta, C, r, c) else C.cells[r][c]
  }

  /** Two frontiers that cover the same cells of C describe the same progress. */
  lemma SameCover(alpha: real, A: Matrix, B: Matrix, beta: real, C: Matrix, cells: seq<seq<real>>, f: Frontier, g: Frontier)
    requires Conformable(A, B, C) && UpdatedOn(alpha, A, B, beta, C, cells, f)
    requires forall r, c :: 0 <= r < C.rows && 0 <= c < C.cols ==> (f.Covers(r, c) <==> g.Covers(r, c))
    ensures UpdatedOn(alpha, A, B, beta, C, cells, g)
  {
  }

  /**
    Updating the next cell (row, col) of the current row advances the
    frontier by that one cell; the cell still held C's value beforehand, so
    it is multiplied exactly once.
   */
  lemma {:induction false} StepCell(alpha: real, A: Matrix, B: Matrix, beta: real, C: Matrix, cells: seq<seq<real>>, f: Frontier)
    requires Conformable(A, B, C) && UpdatedOn(alpha, A, B, beta, C, cells, f)
    requires 0 <= f.row < C.rows && 0 <= f.col < C.cols && f.colLo <= f.col && !f.Covers(f.row, f.col)
    ensures cells[f.row][f.col] == C.cells[f.row][f.col]
    ensures UpdatedOn(alpha, A, B, beta, C,
                      cells[f.row := cells[f.row][f.col := UpdatedCell(alpha, A, B, beta, C, f.row, f.col)]],
                      f.(col := f.col + 1))
  {
  }

  /** Row i of the reference: each column gets C(i,j) *= beta + acc. */
  method ReferenceRow(alpha: real, A: Matrix, B: Matrix, beta: real, C: Matrix, cells: seq<seq<real>>, i: nat)
    returns (cells': seq<seq<real>>)
    requires Conformable(A, B, C) && i < C.rows
    requires UpdatedOn(alpha, A, B, beta, C, cells, RowsDone(i))
    ensures UpdatedOn(alpha, A, B, beta, C, cells', RowsDone(i + 1))
  {
    cells' := cells;
    SameCover(alpha, A, B, beta, C, cells', RowsDone(i), Frontier(i, i + 1, 0, C.cols, i, 0));
    var j := 0;
    while j < C.cols
      invariant 0 <= j <= C.cols
      invariant UpdatedOn(alpha, A, B, beta, C, cells', Frontier(i, i + 1, 0, C.cols, i, j))
    {
      var acc := AlphaDotProduct(alpha, A, B, i, j);
      StepCell(alpha, A, B, beta, C, cells', Frontier(i, i + 1, 0, C.cols, i, j));
      cells' := cells'[i := cells'[i][j := cells'[i][j] * (beta + acc)]];
      j := j + 1;
    }
    SameCover(alpha, A, B, beta, C, cells', Frontier(i, i + 1, 0, C.cols, i, C.cols), RowsDone(i + 1));
  }

  /**
    matrix_product_reference: every cell is multiplied by beta plus the
    alpha-scaled dot product; A and B are only read.
   */
  method MatrixProductReference(alpha: real, A: Matrix, B: Matrix, beta: real, C: Matrix) returns (R: Matrix)
    requires Conformable(A, B, C)
    ensures R.Valid() && R.rows == C.rows && R.cols == C.cols
    ensures forall i, j :: 0 <= i < R.rows && 0 <= j < R.cols ==>
              R.cells[i][j] == C.cells[i][j] * (beta + alpha * Dot(A, B, i, j, A.cols))
    ensures R == Updated(alpha, A, B, beta, C)
  {
    var cells := C.cells;
    var i := 0;
    while i < C.rows
      invariant 0 <= i <= C.rows
      invariant UpdatedOn(alpha, A, B, beta, C, cells, RowsDone(i))
    {
      cells := ReferenceRow(alpha, A, B, beta, C, cells, i);
      i := i + 1;
    }
    R := Matrix(C.rows, C.cols, cells);
    UpdatedByCells(alpha, A, B, beta, C, R);
    forall i, j | 0 <= i < C.rows && 0 <= j < C.cols
      ensures R.cells[i][j] == C.cells[i][j] * (beta + alpha * Dot(A, B, i, j, A.cols))
    {
      AlphaFactoring(alpha, A, B, i, j, A.cols);
    }
  }

  /** The blocked variants' cell update C(i,j) *= beta + alpha * acc, at the frontier's next cell. */
  method BlockedCell(alpha: real, A: Matrix, B: Matrix, beta: real, C: Matrix, cells: seq<seq<real>>, f: Frontier)
    returns (cells': seq<seq<real>>)
    requires Conformable(A, B, C) && UpdatedOn(alpha, A, B, beta, C, cells, f)
    requires 0 <= f.row < C.rows && 0 <= f.col < C.cols && f.colLo <= f.col && !f.Covers(f.row, f.col)
    ensures UpdatedOn(alpha, A, B, beta, C, cells', f.(col := f.col + 1))
  {
    var i, j := f.row, f.col;
    var acc := DotProduct(A, B, i, j);
    AlphaFactoring(alpha, A, B, i, j, A.cols);
    StepCell(alpha, A, B, beta, C, cells, f);
    cells' := cells[i := cells[i][j := cells[i][j] * (beta + alpha * acc)]];
  }

  /** One column j of the row tile [bi, hi) of the _i variant: rows bi .. hi-1 in order. */
  method BlockedIColumn(alpha: real, A: Matrix, B: Matrix, beta: real, C: Matrix, cells: seq<seq<real>>,
                        bi: nat, hi: nat, j: nat)
    returns (cells': seq<seq<real>>)
    requires Conformable(A, B, C) && bi <= hi <= C.rows && j < C.cols
    requires UpdatedOn(alpha, A, B, beta, C, cells, Frontier(bi, hi, j, j, bi, j))
    ensures UpdatedOn(alpha, A, B, beta, C, cells', Frontier(bi, hi, j + 1, j + 1, bi, j + 1))
  {
    cells' := cells;
    SameCover(alpha, A, B, beta, C, cells', Frontier(bi, hi, j, j, bi, j), Frontier(bi, hi, j, j + 1, bi, j));
    var i := bi;
    while i < hi
      invariant bi <= i <= hi
      invariant UpdatedOn(alpha, A, B, beta, C, cells', Frontier(bi, hi, j, j + 1, i, j))
    {
      cells' := BlockedCell(alpha, A, B, beta, C, cells', Frontier(bi, hi, j, j + 1, i, j));
      SameCover(alpha, A, B, beta, C, cells', Frontier(bi, hi, j, j + 1, i, j + 1), Frontier(bi, hi, j, j + 1, i + 1, j));
      i := i + 1;
    }
    SameCover(alpha, A, B, beta, C, cells', Frontier(bi, hi, j, j + 1, hi, j), Frontier(bi, hi, j + 1, j + 1, bi, j + 1));
  }

  /** One row tile [bi, hi) of the _i variant: columns outermost. */
  method BlockedIRowTile(alpha: real, A: Matrix, B: Matrix, beta: real, C: Matrix, cells: seq<seq<real>>,
                         bi: nat, hi: nat)
    returns (cells': seq<seq<real>>)
    requires Conformable(A, B, C) && bi <= hi <= C.rows
    requires UpdatedOn(alpha, A, B, beta, C, cells, RowsDone(bi))
    ensures UpdatedOn(alpha, A, B, beta, C, cells', RowsDone(hi))
  {
    cells' := cells;
    SameCover(alpha, A, B, beta, C, cells', RowsDone(bi), Frontier(bi, hi, 0, 0, bi, 0));
    var j := 0;
    while j < C.cols
      invariant 0 <= j <= C.cols
      invariant UpdatedOn(alpha, A, B, beta, C, cells', Frontier(bi, hi, j, j, bi, j))
    {
      cells' := BlockedIColumn(alpha, A, B, beta, C, cells', bi, hi, j);
      j := j + 1;
    }
    SameCover(alpha, A, B, beta, C, cells', Frontier(bi, hi, C.cols, C.cols, bi, C.cols), RowsDone(hi));
  }

  /**
    matrix_product_cache_blocked_i: (m + bs) / bs row tiles, each clamped to
    min(bi + bs, m); inside a tile the columns are walked outermost and alpha
    is applied once to the plain dot product. For every block size the
    result is the reference update.
   */
  method MatrixProductBlockedI(alpha: real, A: Matrix, B: Matrix, beta: real, C: Matrix, blockSize: nat) returns (R: Matrix)
    requires Conformable(A, B, C) && blockSize >= 1
    ensures R == Updated(alpha, A, B, beta, C)
  {
    var m := C.rows;
    var cells := C.cells;
    var tiles := TileCount(m, blockSize);
    var t := 0;
    while t < tiles
      invariant 0 <= t <= tiles
      invariant UpdatedOn(alpha, A, B, beta, C, cells, RowsDone(Min(t * blockSize, m)))
    {
      var bi := t * blockSize;
      TileStartInRange(m, blockSize, t);
      var hi := Min(bi + blockSize, m);
      cells := BlockedIRowTile(alpha, A, B, beta, C, cells, bi, hi);
      assert (t + 1) * blockSize == bi + blockSize;
      t := t + 1;
    }
    TilesCoverRows(m, blockSize);
    R := Matrix(m, C.cols, cells);
    UpdatedByCells(alpha, A, B, beta, C, R);
  }

  /** One square tile [bi, hi) x [bj, hj) of the _ij variant: rows outer, columns inner. */
  method BlockedIJTile(alpha: real, A: Matrix, B: Matrix, beta: real, C: Matrix, cells: seq<seq<real>>,
                       bi: nat, hi: nat, bj: nat, hj: nat)
    returns (cells': seq<seq<real>>)
    requires Conformable(A, B, C) && bi <= hi <= C.rows && bj <= hj <= C.cols
    requires UpdatedOn(alpha, A, B, beta, C, cells, Frontier(bi, hi, bj, bj, bi, bj))
    ensures UpdatedOn(alpha, A, B, beta, C, cells', Frontier(bi, hi, hj, hj, bi, hj))
  {
    cells' := cells;
    SameCover(alpha, A, B, beta, C, cells', Frontier(bi, hi, bj, bj, bi, bj), Frontier(bi, hi, bj, hj, bi, bj));
    var i := bi;
    while i < hi
      invariant bi <= i <= hi
      invariant UpdatedOn(alpha, A, B, beta, C, cells', Frontier(bi, hi, bj, hj, i, bj))
    {
      var j := bj;
      while j < hj
        invariant bj <= j <= hj
        invariant UpdatedOn(alpha, A, B, beta, C, cells', Frontier(bi, hi, bj, hj, i, j))
      {
        cells' := BlockedCell(alpha, A, B, beta, C, cells', Frontier(bi, hi, bj, hj, i, j));
        j := j + 1;
      }
      SameCover(alpha, A, B, beta, C, cells', Frontier(bi, hi, bj, hj, i, hj), Frontier(bi, hi, bj, hj, i + 1, bj));
      i := i + 1;
    }
    SameCover(alpha, A, B, beta, C, cells', Frontier(bi, hi, bj, hj, hi, bj), Frontier(bi, hi, hj, hj, bi, hj));
  }

  /** One row tile [bi, hi) of the _ij variant: column tiles bj = 0, bs, 2bs, ... while bj < n. */
  method BlockedIJRowTile(alpha: real, A: Matrix, B: Matrix, beta: real, C: Matrix, cells: seq<seq<real>>,
                          bi: nat, hi: nat, blockSize: nat)
    returns (cells': seq<seq<real>>)
    requires Conformable(A, B, C) && bi <= hi <= C.rows && blockSize >= 1
    requires UpdatedOn(alpha, A, B, beta, C, cells, RowsDone(bi))
    ensures UpdatedOn(alpha, A, B, beta, C, cells', RowsDone(hi))
  {
    var n := C.cols;
    cells' := cells;
    SameCover(alpha, A, B, beta, C, cells', RowsDone(bi), Frontier(bi, hi, 0, 0, bi, 0));
    var bj := 0;
    while bj < n
      invariant 0 <= bj
      invariant UpdatedOn(alpha, A, B, beta, C, cells', Frontier(bi, hi, Min(bj, n), Min(bj, n), bi, Min(bj, n)))
      decreases n - bj
    {
      var hj := Min(bj + blockSize, n);
      cells' := BlockedIJTile(alpha, A, B, beta, C, cells', bi, hi, bj, hj);
      bj := bj + blockSize;
    }
    SameCover(alpha, A, B, beta, C, cells', Frontier(bi, hi, n, n, bi, n), RowsDone(hi));
  }

  /**
    matrix_product_cache_blocked_ij: row tiles as in the _i variant, and
    inside each row tile square column tiles clamped to n. Every cell lies in
    exactly one tile pair and is updated exactly once, so the result is
    again the reference update for every block size.
   */
  method MatrixProductBlockedIJ(alpha: real, A: Matrix, B: Matrix, beta: real, C: Matrix, blockSize: nat) returns (R: Matrix)
    requires Conformable(A, B, C) && blockSize >= 1
    ensures R == Updated(alpha, A, B, beta, C)
  {
    var m := C.rows;
    var cells := C.cells;
    var tiles := TileCount(m, blockSize);
    var t := 0;
    while t < tiles
      invariant 0 <= t <= tiles
      invariant UpdatedOn(alpha, A, B, beta, C, cells, RowsDone(Min(t * blockSize, m)))
    {
      var bi := t * blockSize;
      TileStartInRange(m, blockSize, t);
      var hi := Min(bi + blockSize, m);
      cells := BlockedIJRowTile(alpha, A, B, beta, C, cells, bi, hi, blockSize);
      assert (t + 1) * blockSize == bi + blockSize;
      t := t + 1;
    }
    TilesCoverRows(m, blockSize);
    R := Matrix(m, C.cols, cells);
    UpdatedByCells(alpha, A, B, beta, C, R);
  }

  /**
    matrix_are_equal: false when the dimensions differ, otherwise true
    exactly when every pair of entries is within EPS.
   */
  method MatrixAreEqual(A: Matrix, B: Matrix) returns (equal: bool)
    requires A.Valid() && B.Valid()
    ensures equal <==> Close(A, B)
    ensures A.rows != B.rows || A.cols != B.cols ==> !equal
  {
    if A.rows != B.rows || A.cols != B.cols {
      return false;
    }
    var i := 0;
    while i < A.rows
      invariant 0 <= i <= A.rows
      invariant forall r, c :: 0 <= r < i && 0 <= c < A.cols ==> Abs(A.cells[r][c] - B.cells[r][c]) <= EPS
    {
      var j := 0;
      while j < A.cols
        invariant 0 <= j <= A.cols
        invariant forall r, c :: 0 <= r < i && 0 <= c < A.cols ==> Abs(A.cells[r][c] - B.cells[r][c]) <= EPS
        invariant forall c :: 0 <= c < j ==> Abs(A.cells[i][c] - B.cells[i][c]) <= EPS
      {
        if Abs(A.cells[i][j] - B.cells[i][j]) > EPS {
          return false;
        }
        j := j + 1;
      }
      i := i + 1;
    }
    return true;
  }

  /**
    One round of the randomised comparison: the reference and both blocked
    variants run on copies of the same C, and matrix_are_equal accepts both
    comparisons for every shape and block size.
   */
  method CheckSameResults(alpha: real, A: Matrix, B: Matrix, beta: real, C: Matrix, blockSize: nat)
    returns (sameI: bool, sameIJ: bool)
    requires Conformable(A, B, C) && blockSize >= 1
    ensures sameI && sameIJ
  {
    var reference := MatrixProductReference(alpha, A, B, beta, C);
    var tiledI := MatrixProductBlockedI(alpha, A, B, beta, C, blockSize);
    var tiledIJ := MatrixProductBlockedIJ(alpha, A, B, beta, C, blockSize);
    assert tiledI == reference && tiledIJ == reference;
    CloseToItself(reference);
    sameI := MatrixAreEqual(reference, tiledI);
    sameIJ := MatrixAreEqual(reference, tiledIJ);
  }
}

=== FILE: matrix_spec.dfy ===
/**
  The mathematical content of the matrix products in src/matrix_product.hpp,
  over exact (real) arithmetic.

  matrix_product_reference updates C in place: every cell is MULTIPLIED by
  beta plus the alpha-scaled dot product of a row of A with a column of B,

      C(i,j) := C(i,j) * (beta + sum_k alpha * A(i,k) * B(k,j)).

  This is not the usual GEMM update C := alpha*A*B + beta*C; the blocked
  variants compute the same multiplicative update.
 */
module MatrixSpec {

  /** A dense rows x cols matrix; cells[i][j] is the entry in row i, column j. */
  datatype Matrix = Matrix(rows: nat, cols: nat, cells: seq<seq<real>>) {
    predicate Valid() {
      |cells| == rows && forall i :: 0 <= i < |cells| ==> |cells[i]| == cols
    }
  }

  /** The shape assertions of every product: A is m x k, B is k x n, C is m x n. */
  predicate Conformable(A: Matrix, B: Matrix, C: Matrix) {
    A.Valid() && B.Valid() && C.Valid()
    && A.rows == C.rows && B.cols == C.cols && A.cols == B.rows
  }

  /** The first `len` terms of row i of A times column j of B, as the blocked variants accumulate them. */
  function Dot(A: Matrix, B: Matrix, i: nat, j: nat, len: nat): real
    requires A.Valid() && B.Valid() && i < A.rows && j < B.cols
    requires len <= A.cols && len <= B.rows
    decreases len
  {
    if len == 0 then 0.0
    else Dot(A, B, i, j, len - 1) + A.cells[i][len - 1] * B.cells[len - 1][j]
  }

  /** The same sum with alpha inside every term, as the reference accumulates it. */
  function AlphaDot(alpha: real, A: Matrix, B: Matrix, i: nat, j: nat, len: nat): real
    requires A.Valid() && B.Valid() && i < A.rows && j < B.cols
    requires len <= A.cols && len <= B.rows
    decreases len
  {
    if len == 0 then 0.0
    else AlphaDot(alpha, A, B, i, j, len - 1) + alpha * A.cells[i][len - 1] * B.cells[len - 1][j]
  }

  /** Alpha factors out of the accumulated sum: sum_k alpha*a*b == alpha * sum_k a*b. */
  lemma {:induction false} AlphaFactoring(alpha: real, A: Matrix, B: Matrix, i: nat, j: nat, len: nat)
    requires A.Valid() && B.Valid() && i < A.rows && j < B.cols
    requires len <= A.cols && len <= B.rows
    ensures AlphaDot(alpha, A, B, i, j, len) == alpha * Dot(A, B, i, j, len)
    decreases len
  {
    if len > 0 {
      AlphaFactoring(alpha, A, B, i, j, len - 1);
    }
  }

  /** The new value of cell (i, j) under the multiplicative update. */
  function UpdatedCell(alpha: real, A: Matrix, B: Matrix, beta: real, C: Matrix, i: nat, j: nat): real
    requires Conformable(A, B, C) && i < C.rows && j < C.cols
  {
    C.cells[i][j] * (beta + AlphaDot(alpha, A, B, i, j, A.cols))
  }

  /** The whole matrix after the update: the specification every product variant is held to. */
  function Updated(alpha: real, A: Matrix, B: Matrix, beta: real, C: Matrix): (R: Matrix)
    requires Conformable(A, B, C)
    ensures R.Valid() && R.rows == C.rows && R.cols == C.cols
  {
    Matrix(C.rows, C.cols,
           seq(C.rows, i requires 0 <= i < C.rows =>
             seq(C.cols, j requires 0 <= j < C.cols => UpdatedCell(alpha, A, B, beta, C, i, j))))
  }

  /** A matrix of C's shape that holds the updated value in every cell is the updated matrix. */
  lemma {:induction false} UpdatedByCells(alpha: real, A: Matrix, B: Matrix, beta: real, C: Matrix, R: Matrix)
    requires Conformable(A, B, C) && R.Valid() && R.rows == C.rows && R.cols == C.cols
    requires forall i, j :: 0 <= i < C.rows && 0 <= j < C.cols ==>
               R.cells[i][j] == UpdatedCell(alpha, A, B, beta, C, i, j)
    ensures R == Updated(alpha, A, B, beta, C)
  {
    var U := Updated(alpha, A, B, beta, C);
    forall i | 0 <= i < C.rows
      ensures R.cells[i] == U.cells[i]
    {
      assert forall j :: 0 <= j < C.cols ==> R.cells[i][j] == U.cells[i][j];
    }
  }

  // ---------------------------------------------------------------------
  // Approximate equality (matrix_are_equal)
  // ---------------------------------------------------------------------

  /** The tolerance 1e-10 of matrix_are_equal. */
  const EPS: real := 0.0000000001

  function Abs(x: real): real {
    if x < 0.0 then -x else x
  }

  /** Same dimensions, and every pair of entries within EPS of each other. */
  predicate Close(A: Matrix, B: Matrix)
    requires A.Valid() && B.Valid()
  {
    A.rows == B.rows && A.cols == B.cols
    && forall i, j :: 0 <= i < A.rows && 0 <= j < A.cols ==> Abs(A.cells[i][j] - B.cells[i][j]) <= EPS
  }

  /** A matrix is within tolerance of itself, so equal results always pass the comparison. */
  lemma CloseToItself(A: Matrix)
    requires A.Valid()
    ensures Close(A, A)
  {
    assert Abs(0.0) <= EPS;
  }

  // ---------------------------------------------------------------------
  // The fixed example of the test driver
  // ---------------------------------------------------------------------

  const EXAMPLE_A: Matrix := Matrix(2, 3, [[1.0, 2.0, 3.0], [4.0, 5.0, 6.0]])
  const EXAMPLE_B: Matrix := Matrix(3, 4, [[7.0, 8.0, 9.0, 10.0], [11.0, 12.0, 13.0, 14.0], [15.0, 16.0, 17.0, 18.0]])
  const EXAMPLE_C: Matrix := Matrix(2, 4, [[19.0, 20.0, 21.0, 22.0], [23.0, 24.0, 25.0, 26.0]])
  const EXAMPLE_RESULT: Matrix :=
    Matrix(2, 4, [[2793.0, 3180.0, 3591.0, 4026.0], [7935.0, 9000.0, 10125.0, 11310.0]])

  /**
    With alpha = 2 and beta = -1 the update turns the example C into the
    expected result, e.g. 19 * (-1 + 2 * 74) = 2793 for the first cell.
   */
  lemma FixedExample()
    ensures Conformable(EXAMPLE_A, EXAMPLE_B, EXAMPLE_C)
    ensures Updated(2.0, EXAMPLE_A, EXAMPLE_B, -1.0, EXAMPLE_C) == EXAMPLE_RESULT
  {
    var A, B, C := EXAMPLE_A, EXAMPLE_B, EXAMPLE_C;
    assert Conformable(A, B, C);
    forall i, j | 0 <= i < 2 && 0 <= j < 4
      ensures UpdatedCell(2.0, A, B, -1.0, C, i, j) == EXAMPLE_RESULT.cells[i][j]
    {
      assert AlphaDot(2.0, A, B, i, j, 3)
          == 2.0 * A.cells[i][0] * B.cells[0][j] + 2.0 * A.cells[i][1] * B.cells[1][j] + 2.0 * A.cells[i][2] * B.cells[2][j];
    }
    UpdatedByCells(2.0, A, B, -1.0, C, EXAMPLE_RESULT);
  }
}

=== FILE: results.dfy ===
/**
  The result/error model of the Culkan library (culkan/culkan.h).

  A `CulkanResult` carries two independent channels: the status of the last
  native Vulkan call (`vkResult`) and the library's own error code
  (`ckResult`). Both are kept as plain integers, because the C enum fields
  can hold any value -- in particular the uninitialised bytes of a freshly
  allocated session.

  Every check of the library either lets execution continue or ends the
  process with `exit(1)` after printing one line per failing channel. A
  session operation therefore produces a `Step`: it continues with a value,
  it ends the process (`Exit`, with the diagnostics printed before the
  exit), or it does something the C language leaves undefined.
 */
module Results {

  // VkResult values the library itself produces or tests against.
  const VK_SUCCESS: int := 0
  const VK_ERROR_OUT_OF_HOST_MEMORY: int := -1
  const VK_ERROR_UNKNOWN: int := -13

  // CulkanErrCodes, numbered in declaration order.
  const NO_ERROR: int := 0
  const OUT_OF_BOUNDS_BINDING: int := 1
  const FILE_NOT_FOUND: int := 2
  const TOO_MANY_INVOCATIONS: int := 3
  const NOT_ENOUGH_MEMORY: int := 4

  datatype CulkanResult = CulkanResult(vkResult: int, ckResult: int) {
    /** A result is a failure when either channel signals one. */
    predicate Failed() {
      vkResult != VK_SUCCESS || ckResult != NO_ERROR
    }
  }

  /** True of the five codes the enum declares. */
  predicate IsNamedCode(code: int) {
    NO_ERROR <= code <= NOT_ENOUGH_MEMORY
  }

  /** culkanErrCodeToString: the human-readable name of a library error code. */
  function ErrCodeToString(code: int): (name: string)
    ensures name == "Unknown error" <==> !IsNamedCode(code)
    ensures name == "No error" <==> code == NO_ERROR
    ensures name == "Out of bounds binding" <==> code == OUT_OF_BOUNDS_BINDING
    ensures name == "File not found" <==> code == FILE_NOT_FOUND
    ensures name == "Too many invocations" <==> code == TOO_MANY_INVOCATIONS
    ensures name == "Not enough memory" <==> code == NOT_ENOUGH_MEMORY
  {
    if code == NO_ERROR then "No error"
    else if code == OUT_OF_BOUNDS_BINDING then "Out of bounds binding"
    else if code == FILE_NOT_FOUND then "File not found"
    else if code == TOO_MANY_INVOCATIONS then "Too many invocations"
    else if code == NOT_ENOUGH_MEMORY then "Not enough memory"
    else "Unknown error"
  }

  /** Distinct declared codes print under distinct names. */
  lemma ErrCodeNamesDistinct(a: int, b: int)
    requires IsNamedCode(a) && IsNamedCode(b) && a != b
    ensures ErrCodeToString(a) != ErrCodeToString(b)
  {
  }

  /** One diagnostic line written before the process ends. */
  datatype Report =
    | VulkanError(status: int)                      // "Vulkan error at <site>: <name> (<status>)"
    | CulkanError(code: int, name: string)          // "Culkan error at <site>: <name>"
    | Message(text: string)                         // "ERROR : <text>" or a plain diagnostic line
    | InvocationMessage(max: int, requested: int)   // the message built by the invocation check

  /** What a check prints, and whether it then exits. */
  datatype Verdict = Verdict(reports: seq<Report>, exits: bool)

  /**
    __checkCulkanResult: each failing channel is reported, the native status
    first, and the process exits once, after both reports.
   */
  function CheckResult(r: CulkanResult): (v: Verdict)
    ensures v.exits <==> r.Failed()
    ensures VulkanError(r.vkResult) in v.reports <==> r.vkResult != VK_SUCCESS
    ensures CulkanError(r.ckResult, ErrCodeToString(r.ckResult)) in v.reports <==> r.ckResult != NO_ERROR
    ensures forall k :: 0 <= k < |v.reports| ==>
              v.reports[k] == VulkanError(r.vkResult) || v.reports[k] == CulkanError(r.ckResult, ErrCodeToString(r.ckResult))
    ensures r.vkResult != VK_SUCCESS && r.ckResult != NO_ERROR ==>
              v.reports == [VulkanError(r.vkResult), CulkanError(r.ckResult, ErrCodeToString(r.ckResult))]
    ensures r.vkResult != VK_SUCCESS && r.ckResult == NO_ERROR ==> v.reports == [VulkanError(r.vkResult)]
    ensures r.vkResult == VK_SUCCESS && r.ckResult != NO_ERROR ==> v.reports == [CulkanError(r.ckResult, ErrCodeToString(r.ckResult))]
    ensures !r.Failed() ==> v.reports == []
  {
    var native := if r.vkResult != VK_SUCCESS then [VulkanError(r.vkResult)] else [];
    var library := if r.ckResult != NO_ERROR then [CulkanError(r.ckResult, ErrCodeToString(r.ckResult))] else [];
    var shouldExit := |native| > 0 || |library| > 0;
    Verdict(native + library, shouldExit)
  }

  /** The outcome of one library operation. */
  datatype Step<+T> =
    | Done(value: T)
    | Exit(reports: seq<Report>)
    | Undefined(reason: string)
  {
    predicate IsFailure() {
      !Done?
    }

    function PropagateFailure<U>(): Step<U>
      requires !Done?
    {
      if Exit? then Exit(reports) else Undefined(reason)
    }

    function Extract(): T
      requires Done?
    {
      value
    }
  }

  /**
    culkanCheckError (and vkCheckError, given a result whose library code is
    NO_ERROR): continue with `value` unless the result failed.
   */
  function Check<T>(r: CulkanResult, value: T): (out: Step<T>)
    ensures out.Done? <==> !r.Failed()
    ensures out.Done? ==> out.value == value
    ensures out.Exit? ==> out.reports == CheckResult(r).reports && |out.reports| > 0
    ensures !out.Undefined?
  {
    var v := CheckResult(r);
    if v.exits then Exit(v.reports) else Done(value)
  }

  /**
    culkanCheckErrorWithMessage: the extra message is printed only when the
    library code signals an error; then the result is checked as usual.
   */
  function CheckWithMessage<T>(r: CulkanResult, message: Report, value: T): (out: Step<T>)
    ensures out.Done? <==> !r.Failed()
    ensures out.Done? ==> out.value == value
    ensures out.Exit? && r.ckResult != NO_ERROR ==> out.reports == [message] + CheckResult(r).reports
    ensures out.Exit? && r.ckResult == NO_ERROR ==> out.reports == CheckResult(r).reports
    ensures !out.Undefined?
  {
    var prefix := if r.ckResult != NO_ERROR then [message] else [];
    var v := CheckResult(r);
    if v.exits then Exit(prefix + v.reports) else Done(value)
  }
}

=== FILE: session.dfy ===
/**
  The Culkan session (culkan/culkan.h) as a state machine over a mocked
  device.

  A native Vulkan call is an opaque transition: the only thing the library
  looks at is the status it returns, and a `Platform` supplies that status
  per kind of call (a call kind it does not list succeeds). The device
  memory backing each binding is a byte sequence; what the compute shader
  does to it during a run is supplied by the caller of `Run`.
 */
module Session {
  import opened Results
  import opened Capability

  type byte = x: int | 0 <= x < 0x100

  // CulkanBindingType values: the descriptor types of the Vulkan headers.
  const UNIFORM_BUFFER: int := 6    // VK_DESCRIPTOR_TYPE_UNIFORM_BUFFER
  const STORAGE_BUFFER: int := 7    // VK_DESCRIPTOR_TYPE_STORAGE_BUFFER
  const OUTPUT_BUFFER: int := 7     // an alias of STORAGE_BUFFER

  // Buffer usage and shader stage bits of the Vulkan headers.
  const VK_BUFFER_USAGE_UNIFORM_BUFFER_BIT: bv32 := 0x10
  const VK_BUFFER_USAGE_STORAGE_BUFFER_BIT: bv32 := 0x20
  const VK_SHADER_STAGE_COMPUTE_BIT: bv32 := 0x20

  /** One slot of the shader's interface: its byte size and its declared type. */
  datatype Binding = Binding(size: nat, bindingType: int)

  /** The native calls whose status the library checks. */
  datatype VkCall =
    | CreateInstance | EnumeratePhysicalDevices | CreateDevice
    | CreateBuffer | AllocateMemory | BindBufferMemory
    | CreateDescriptorSetLayout | CreateDescriptorPool | AllocateDescriptorSets
    | CreatePipelineLayout | CreateShaderModule | CreateComputePipelines
    | CreateCommandPool | AllocateCommandBuffers | CreateFence

  /** The mocked Vulkan implementation: call statuses and the enumerated physical devices. */
  datatype Platform = Platform(statuses: map<VkCall, int>, physicalDevices: seq<Device>) {
    function Status(call: VkCall): int {
      if call in statuses then statuses[call] else VK_SUCCESS
    }

    predicate Valid() {
      forall d :: d in physicalDevices ==> d.Valid()
    }
  }

  /** The answer of vkGetBufferMemoryRequirements for one buffer. */
  datatype MemoryRequirements = MemoryRequirements(size: nat, memoryTypeBits: bv32)

  /** VkDescriptorSetLayoutBinding, VkDescriptorPoolSize, VkDescriptorBufferInfo, VkWriteDescriptorSet. */
  datatype LayoutEntry = LayoutEntry(binding: nat, descriptorType: int, descriptorCount: nat, stageFlags: bv32)
  datatype PoolEntry = PoolEntry(descriptorType: int, descriptorCount: nat)
  datatype BufferInfo = BufferInfo(buffer: nat, offset: nat, range: u32)   // `buffer` names the slot whose buffer is meant
  datatype DescriptorWrite = DescriptorWrite(
    dstBinding: nat, dstArrayElement: nat, descriptorCount: nat, descriptorType: int, bufferInfo: BufferInfo)

  /** GPUVariable: the device buffer and memory behind one slot, with its cached descriptor metadata. */
  datatype Variable = Variable(
    sizeOfVar: nat,
    usage: bv32,
    bufferSize: u32,                       // the size the buffer is created with (a uint32_t parameter)
    bufferFamily: nat,                     // the queue family index passed at buffer creation
    requirements: MemoryRequirements,
    memoryTypeIndex: nat,
    layoutBinding: LayoutEntry,
    poolSize: PoolEntry,
    bufferInfo: BufferInfo)

  /** What culkanSetup assembles and records. */
  datatype Pipeline = Pipeline(
    layoutBindings: seq<LayoutEntry>,
    poolSizes: seq<PoolEntry>,
    maxSets: nat,
    writes: seq<DescriptorWrite>,
    shaderSize: nat,
    commandPoolFamily: nat,
    queueFamily: nat,                      // the family the queue handle is fetched from
    dispatch: (nat, nat, nat))

  datatype Assembly = NotAssembled | Assembled(pipeline: Pipeline)

  datatype Fence = NoFence | Live | Destroyed

  /** The outcome of reading the shader file: it cannot be opened, fewer bytes arrive than ftell reported, or all `size` bytes arrive. */
  datatype ShaderFile = Missing | ShortRead | Loaded(size: nat) {
    /**
      fread(buffer, size, 1, file) returns 1, the only count the library
      accepts: the whole file is read and it is not empty (an item of size
      0 makes fread return 0).
     */
    predicate ReadsOneItem() {
      Loaded? && size > 0
    }
  }

  /** The Culkan instance. */
  datatype Culkan = Culkan(
    layout: seq<Binding>,
    shaderPath: string,
    invocations: Invocations,
    result: CulkanResult,
    device: Device,
    family: nat,                           // culkan->family
    deviceQueueFamily: nat,                // the family the logical device's queue is created on
    variables: seq<Variable>,
    memory: seq<seq<byte>>,                // the contents of each slot's device memory
    assembly: Assembly,
    fence: Fence)

  predicate Valid(c: Culkan) {
    && |c.layout| < 0x1_0000_0000
    && |c.variables| == |c.layout|
    && |c.memory| == |c.layout|
    && c.device.Valid()
    && (forall i :: 0 <= i < |c.layout| ==> c.variables[i].sizeOfVar == c.layout[i].size)
    && (forall i :: 0 <= i < |c.layout| ==> |c.memory[i]| == c.variables[i].requirements.size)
  }

  /** A conversion to uint32_t keeps the value modulo 2^32. */
  function Truncate32(n: nat): (t: u32)
    ensures n < 0x1_0000_0000 ==> t == n
  {
    n % 0x1_0000_0000
  }

  // ---------------------------------------------------------------------
  // Device variables (createGPUVariable, toVkBufferUsageFlags)
  // ---------------------------------------------------------------------

  /**
    toVkBufferUsageFlags: storage (and output) bindings get storage-buffer
    usage, uniform bindings uniform-buffer usage, anything else no usage.
   */
  function ToUsageFlags(bindingType: int): (usage: bv32)
    ensures usage != 0 <==> bindingType == STORAGE_BUFFER || bindingType == UNIFORM_BUFFER
    ensures usage == VK_BUFFER_USAGE_STORAGE_BUFFER_BIT <==> bindingType == STORAGE_BUFFER
    ensures usage == VK_BUFFER_USAGE_UNIFORM_BUFFER_BIT <==> bindingType == UNIFORM_BUFFER
  {
    if bindingType == STORAGE_BUFFER then VK_BUFFER_USAGE_STORAGE_BUFFER_BIT
    else if bindingType == UNIFORM_BUFFER then VK_BUFFER_USAGE_UNIFORM_BUFFER_BIT
    else 0
  }

  /**
    The variable createGPUVariable builds for slot `slot`. Whatever type the
    binding declares, its cached layout entry and pool size say STORAGE; the
    descriptor range is the buffer size, both passed through uint32_t.
   */
  function CreateVariable(dev: Device, b: Binding, slot: nat, family: nat, req: MemoryRequirements): (v: Variable)
    requires dev.Valid()
    ensures v.sizeOfVar == b.size && v.requirements == req && v.bufferFamily == family
    ensures v.usage == ToUsageFlags(b.bindingType)
    ensures b.size < 0x1_0000_0000 ==> v.bufferSize == b.size
    ensures v.bufferSize == b.size % 0x1_0000_0000
    ensures v.bufferInfo.buffer == slot && v.bufferInfo.offset == 0 && v.bufferInfo.range == v.bufferSize
    ensures IsMemoryTypeChoice(req.memoryTypeBits, dev.memoryTypeFlags, v.memoryTypeIndex)
    ensures v.layoutBinding.binding == slot && v.layoutBinding.descriptorType == STORAGE_BUFFER
    ensures v.layoutBinding.descriptorCount == 1 && v.layoutBinding.stageFlags == VK_SHADER_STAGE_COMPUTE_BIT
    ensures v.poolSize == PoolEntry(STORAGE_BUFFER, 1)
  {
    Variable(
      sizeOfVar := b.size,
      usage := ToUsageFlags(b.bindingType),
      bufferSize := Truncate32(b.size),
      bufferFamily := family,
      requirements := req,
      memoryTypeIndex := PickMemoryType(req.memoryTypeBits, dev.memoryTypeFlags),
      layoutBinding := LayoutEntry(slot, STORAGE_BUFFER, 1, VK_SHADER_STAGE_COMPUTE_BIT),
      poolSize := PoolEntry(STORAGE_BUFFER, 1),
      bufferInfo := BufferInfo(slot, 0, Truncate32(b.size)))
  }

  /** The variables of culkanInit's allocation loop: slot i is built from binding i and its requirements. */
  function CreateVariables(dev: Device, layout: seq<Binding>, family: nat, answers: seq<MemoryRequirements>): (vs: seq<Variable>)
    requires dev.Valid() && |answers| == |layout|
    ensures |vs| == |layout|
    ensures forall i :: 0 <= i < |layout| ==> vs[i] == CreateVariable(dev, layout[i], i, family, answers[i])
  {
    seq(|layout|, i requires 0 <= i < |layout| => CreateVariable(dev, layout[i], i, family, answers[i]))
  }

  function Zeros(n: nat): (s: seq<byte>)
    ensures |s| == n
  {
    seq(n, _ => 0)
  }

  function RequiredSizes(answers: seq<MemoryRequirements>): (sizes: seq<nat>)
    ensures |sizes| == |answers|
    ensures forall i :: 0 <= i < |answers| ==> sizes[i] == answers[i].size
  {
    seq(|answers|, i requires 0 <= i < |answers| => answers[i].size)
  }

  // ---------------------------------------------------------------------
  // Checked native calls
  // ---------------------------------------------------------------------

  /**
    A run of native calls, each storing its status in result.vkResult and
    followed by culkanCheckError. The run gets through only if every call
    succeeds and the library code is NO_ERROR.
   */
  function CheckedCalls(p: Platform, calls: seq<VkCall>, r: CulkanResult): (out: Step<CulkanResult>)
    ensures !out.Undefined?
    ensures out.Done? <==> |calls| == 0 || (r.ckResult == NO_ERROR && forall k :: 0 <= k < |calls| ==> p.Status(calls[k]) == VK_SUCCESS)
    ensures out.Done? && |calls| == 0 ==> out.value == r
    ensures out.Done? && |calls| > 0 ==> out.value == CulkanResult(VK_SUCCESS, NO_ERROR)
    ensures |calls| > 0 && r.ckResult != NO_ERROR ==>
              out.Exit? && CulkanError(r.ckResult, ErrCodeToString(r.ckResult)) in out.reports
    decreases |calls|
  {
    if |calls| == 0 then Done(r)
    else
      var r' := r.(vkResult := p.Status(calls[0]));
      var checked :- Check(r', ());
      CheckedCalls(p, calls[1..], r')
  }

  /**
    The status handling of culkanGPUAlloc over `count` bindings: buffer
    creation is checked on its own (vkCheckError), then the allocate and bind
    statuses are stored in result.vkResult and checked the same way, which
    ignores the library code.
   */
  function AllocationChecks(p: Platform, count: nat, r: CulkanResult): (out: Step<CulkanResult>)
    ensures !out.Undefined?
    ensures out.Done? <==> AllocatesAll(p, count)
    ensures out.Done? ==> out.value.ckResult == r.ckResult
    ensures out.Done? && count > 0 ==> out.value.vkResult == VK_SUCCESS
    ensures out.Done? && count == 0 ==> out.value == r
    decreases count
  {
    if count == 0 then Done(r)
    else
      var checked :- Check(CulkanResult(p.Status(CreateBuffer), NO_ERROR), ());
      var afterAllocate := r.(vkResult := p.Status(AllocateMemory));
      var checked :- Check(CulkanResult(afterAllocate.vkResult, NO_ERROR), ());
      var bound := afterAllocate.(vkResult := p.Status(BindBufferMemory));
      var checked :- Check(CulkanResult(bound.vkResult, NO_ERROR), ());
      AllocationChecks(p, count - 1, bound)
  }

  // ---------------------------------------------------------------------
  // culkanInit
  // ---------------------------------------------------------------------

  const INSTANCE_CALLS: seq<VkCall> := [CreateInstance, EnumeratePhysicalDevices, EnumeratePhysicalDevices]

  /**
    What the first half of culkanInit needs to get through: a clean initial
    code, successful instance calls and device creation, at least one
    physical device, an invocation count within the first device's limit and
    a compute-capable queue family on it.
   */
  predicate OpensDevice(p: Platform, invocations: Invocations, initial: CulkanResult) {
    && initial.ckResult == NO_ERROR
    && (forall k :: 0 <= k < |INSTANCE_CALLS| ==> p.Status(INSTANCE_CALLS[k]) == VK_SUCCESS)
    && p.Status(CreateDevice) == VK_SUCCESS
    && |p.physicalDevices| > 0
    && RequestedInvocations(invocations) <= p.physicalDevices[0].maxComputeWorkGroupInvocations
    && exists k :: 0 <= k < |p.physicalDevices[0].queueFamilyFlags| && SupportsCompute(p.physicalDevices[0].queueFamilyFlags, k)
  }

  /** The allocation loop of culkanInit gets through: no bindings, or every per-binding call succeeds. */
  predicate AllocatesAll(p: Platform, count: nat) {
    count == 0 || (p.Status(CreateBuffer) == VK_SUCCESS && p.Status(AllocateMemory) == VK_SUCCESS && p.Status(BindBufferMemory) == VK_SUCCESS)
  }

  /**
    The first half of culkanInit: instance creation, device enumeration, the
    invocation check, the queue-family choice and device creation. Yields the
    device used, the family the device queue is created on, and the result.
    `initial` stands for the contents of the freshly malloc'ed result field,
    which the source never initialises before its first check.
   */
  function OpenDevice(p: Platform, invocations: Invocations, initial: CulkanResult): (out: Step<(Device, nat, CulkanResult)>)
    requires p.Valid()
    ensures |p.physicalDevices| > 0 || initial.ckResult != NO_ERROR ==> !out.Undefined?
    ensures initial.ckResult != NO_ERROR ==>
              out.Exit? && CulkanError(initial.ckResult, ErrCodeToString(initial.ckResult)) in out.reports
    ensures out.Done? <==> OpensDevice(p, invocations, initial)
    ensures && initial.ckResult == NO_ERROR
            && (forall k :: 0 <= k < |INSTANCE_CALLS| ==> p.Status(INSTANCE_CALLS[k]) == VK_SUCCESS)
            && |p.physicalDevices| == 0
            ==> out.Undefined?
    ensures out.Done? ==>
              && |p.physicalDevices| > 0
              && out.value.0 == p.physicalDevices[0]
              && out.value.0.Valid()
              && RequestedInvocations(invocations) <= out.value.0.maxComputeWorkGroupInvocations
              && IsFirstComputeFamily(out.value.0.queueFamilyFlags, out.value.1)
              && out.value.2 == CulkanResult(VK_SUCCESS, NO_ERROR)
    ensures && initial.ckResult == NO_ERROR
            && (forall k :: 0 <= k < |INSTANCE_CALLS| ==> p.Status(INSTANCE_CALLS[k]) == VK_SUCCESS)
            && |p.physicalDevices| > 0
            && RequestedInvocations(invocations) <= p.physicalDevices[0].maxComputeWorkGroupInvocations
            && (forall k :: 0 <= k < |p.physicalDevices[0].queueFamilyFlags| ==> !SupportsCompute(p.physicalDevices[0].queueFamilyFlags, k))
            ==> out == Exit([Message("No compute queue family found")])
  {
    var r1 :- CheckedCalls(p, INSTANCE_CALLS, initial);
    if |p.physicalDevices| == 0 then
      Undefined("physicalDevices[0] is read from an empty device list")
    else
      var dev := p.physicalDevices[0];
      assert dev in p.physicalDevices;
      var r2 :- CheckInvocations(dev.maxComputeWorkGroupInvocations, invocations, r1);
      var q := FirstComputeFamily(dev.queueFamilyFlags);
      if q == |dev.queueFamilyFlags| then
        Exit([Message("No compute queue family found")])
      else
        var r3 :- CheckedCalls(p, [CreateDevice], r2);
        Done((dev, q, r3))
  }

  /**
    culkanInit. `answers` are the driver's memory requirements for each
    slot's buffer. The device queue is created on the first compute family,
    while culkan->family stays 0 and is what buffer creation, the command
    pool and the queue lookup use.
   */
  function Init(p: Platform, layout: seq<Binding>, shaderPath: string, invocations: Invocations,
                answers: seq<MemoryRequirements>, initial: CulkanResult): (out: Step<Culkan>)
    requires p.Valid()
    requires |layout| < 0x1_0000_0000
    requires |answers| == |layout|
    ensures |p.physicalDevices| > 0 || initial.ckResult != NO_ERROR ==> !out.Undefined?
    ensures initial.ckResult != NO_ERROR ==>
              out.Exit? && CulkanError(initial.ckResult, ErrCodeToString(initial.ckResult)) in out.reports
    ensures out.Done? <==> OpensDevice(p, invocations, initial) && AllocatesAll(p, |layout|)
    ensures && initial.ckResult == NO_ERROR
            && (forall k :: 0 <= k < |INSTANCE_CALLS| ==> p.Status(INSTANCE_CALLS[k]) == VK_SUCCESS)
            && |p.physicalDevices| == 0
            ==> out.Undefined?
    ensures out.Done? ==> Valid(out.value)
    ensures out.Done? ==>
              && |p.physicalDevices| > 0
              && out.value.device == p.physicalDevices[0]
              && RequestedInvocations(invocations) <= out.value.device.maxComputeWorkGroupInvocations
              && out.value.family == 0
              && IsFirstComputeFamily(out.value.device.queueFamilyFlags, out.value.deviceQueueFamily)
    ensures out.Done? ==>
              && out.value.result.vkResult == VK_SUCCESS
              && (MemoryShortfall(out.value.device.heapSizes, RequiredSizes(answers)) ==> out.value.result.ckResult == NOT_ENOUGH_MEMORY)
              && (!MemoryShortfall(out.value.device.heapSizes, RequiredSizes(answers)) ==> out.value.result.ckResult == NO_ERROR)
    ensures out.Done? ==> Valid(out.value) && out.value.variables == CreateVariables(out.value.device, layout, 0, answers)
    ensures out.Done? ==> |out.value.variables| == |layout| && forall i :: 0 <= i < |layout| ==>
              && out.value.variables[i].requirements == answers[i]
              && IsMemoryTypeChoice(answers[i].memoryTypeBits, out.value.device.memoryTypeFlags, out.value.variables[i].memoryTypeIndex)
              && out.value.variables[i].usage == ToUsageFlags(layout[i].bindingType)
              && out.value.variables[i].bufferFamily == 0
    ensures out.Done? ==>
              && out.value.layout == layout
              && out.value.shaderPath == shaderPath
              && out.value.invocations == invocations
              && out.value.assembly == NotAssembled
              && out.value.fence == NoFence
  {
    var negotiated :- OpenDevice(p, invocations, initial);
    var dev := negotiated.0;
    var r4 :- AllocationChecks(p, |layout|, negotiated.2);
    // The culkanCheckError after the allocation loop cannot fail here: every
    // earlier failure has already ended the process.
    var r5 := CheckForEnoughMemory(dev.heapSizes, RequiredSizes(answers), r4);
    Done(Allocated(layout, shaderPath, invocations, answers, dev, negotiated.1, r5))
  }

  /**
    The session culkanInit returns once the device is open and every slot
    has its buffer: culkan->family is 0, each slot's memory is fresh, nothing
    is assembled yet.
   */
  function Allocated(layout: seq<Binding>, shaderPath: string, invocations: Invocations,
                     answers: seq<MemoryRequirements>, dev: Device, queueFamily: nat, r: CulkanResult): (c: Culkan)
    requires dev.Valid() && |layout| < 0x1_0000_0000 && |answers| == |layout|
    ensures Valid(c)
    ensures c.variables == CreateVariables(dev, layout, 0, answers)
    ensures forall i :: 0 <= i < |layout| ==> |c.memory[i]| == answers[i].size
    ensures c == Culkan(layout, shaderPath, invocations, r, dev, 0, queueFamily, c.variables, c.memory, NotAssembled, NoFence)
  {
    var variables := CreateVariables(dev, layout, 0, answers);
    var memory := seq(|layout|, i requires 0 <= i < |layout| => Zeros(answers[i].size));
    Culkan(layout, shaderPath, invocations, r, dev, 0, queueFamily, variables, memory, NotAssembled, NoFence)
  }

  // ---------------------------------------------------------------------
  // Binding access
  // ---------------------------------------------------------------------

  const OUT_OF_BOUNDS: CulkanResult := CulkanResult(VK_ERROR_UNKNOWN, OUT_OF_BOUNDS_BINDING)

  /** culkanGetBinding: an out-of-range slot records the error and the check ends the process. */
  function GetBinding(c: Culkan, binding: u32): (out: Step<Variable>)
    requires Valid(c)
    ensures out.Done? <==> binding < |c.layout|
    ensures out.Done? ==> out.value == c.variables[binding]
    ensures out.Exit? ==> out.reports == [VulkanError(VK_ERROR_UNKNOWN), CulkanError(OUT_OF_BOUNDS_BINDING, "Out of bounds binding")]
    ensures !out.Undefined?
  {
    if binding >= |c.layout| then
      Check(OUT_OF_BOUNDS, ()).PropagateFailure()
    else
      Done(c.variables[binding])
  }

  /**
    culkanWriteGPUVariable: the map status goes to result.vkResult and is
    checked on its own; then sizeOfVar bytes of `src` are copied to the start
    of the mapped memory.
   */
  function WriteVariable(v: Variable, mem: seq<byte>, src: seq<byte>, r: CulkanResult, mapStatus: int): (out: Step<(seq<byte>, CulkanResult)>)
    requires |src| >= v.sizeOfVar
    ensures out.Exit? <==> mapStatus != VK_SUCCESS
    ensures out.Done? <==> mapStatus == VK_SUCCESS && v.sizeOfVar <= |mem|
    ensures out.Done? ==>
              && |out.value.0| == |mem|
              && out.value.0[..v.sizeOfVar] == src[..v.sizeOfVar]
              && out.value.0[v.sizeOfVar..] == mem[v.sizeOfVar..]
              && out.value.1 == r.(vkResult := mapStatus)
  {
    var r' := r.(vkResult := mapStatus);
    var checked :- Check(CulkanResult(r'.vkResult, NO_ERROR), ());
    if v.sizeOfVar > |mem| then
      Undefined("memcpy writes past the end of the mapped allocation")
    else
      Done((src[..v.sizeOfVar] + mem[v.sizeOfVar..], r'))
  }

  /** culkanReadGPUVariable: the symmetric copy out of the mapped memory. */
  function ReadVariable(v: Variable, mem: seq<byte>, r: CulkanResult, mapStatus: int): (out: Step<(seq<byte>, CulkanResult)>)
    ensures out.Exit? <==> mapStatus != VK_SUCCESS
    ensures out.Done? <==> mapStatus == VK_SUCCESS && v.sizeOfVar <= |mem|
    ensures out.Done? ==>
              && |out.value.0| == v.sizeOfVar
              && (forall k :: 0 <= k < v.sizeOfVar ==> out.value.0[k] == mem[k])
              && out.value.1 == r.(vkResult := mapStatus)
  {
    var r' := r.(vkResult := mapStatus);
    var checked :- Check(CulkanResult(r'.vkResult, NO_ERROR), ());
    if v.sizeOfVar > |mem| then
      Undefined("memcpy reads past the end of the mapped allocation")
    else
      Done((mem[..v.sizeOfVar], r'))
  }

  /**
    culkanWriteBinding: an out-of-range slot only records the error and
    returns; an in-range slot has its first sizeOfVar bytes replaced.
   */
  function WriteBinding(c: Culkan, binding: u32, src: seq<byte>, mapStatus: int): (out: Step<Culkan>)
    requires Valid(c)
    requires binding < |c.layout| ==> |src| >= c.layout[binding].size
    ensures binding >= |c.layout| ==> out == Done(c.(result := OUT_OF_BOUNDS))
    ensures out.Done? ==> Valid(out.value)
    ensures binding < |c.layout| ==> (out.Exit? <==> mapStatus != VK_SUCCESS)
    ensures binding < |c.layout| ==>
              (out.Done? <==> mapStatus == VK_SUCCESS && c.layout[binding].size <= |c.memory[binding]|)
    ensures binding < |c.layout| && out.Done? ==>
              && c.layout[binding].size <= |c.memory[binding]|
              && out.value == c.(memory := out.value.memory, result := out.value.result)
              && out.value.result == c.result.(vkResult := mapStatus)
              && out.value.memory[binding][..c.layout[binding].size] == src[..c.layout[binding].size]
              && out.value.memory[binding][c.layout[binding].size..] == c.memory[binding][c.layout[binding].size..]
              && (forall s :: 0 <= s < |c.memory| && s != binding ==> out.value.memory[s] == c.memory[s])
  {
    if binding >= |c.layout| then
      Done(c.(result := OUT_OF_BOUNDS))
    else
      var written :- WriteVariable(c.variables[binding], c.memory[binding], src, c.result, mapStatus);
      Done(c.(memory := c.memory[binding := written.0], result := written.1))
  }

  /**
    culkanReadBinding: unlike the write, an out-of-range slot is fatal; an
    in-range slot yields its first sizeOfVar bytes.
   */
  function ReadBinding(c: Culkan, binding: u32, mapStatus: int): (out: Step<(Culkan, seq<byte>)>)
    requires Valid(c)
    ensures binding >= |c.layout| ==>
              out == Exit([VulkanError(VK_ERROR_UNKNOWN), CulkanError(OUT_OF_BOUNDS_BINDING, "Out of bounds binding")])
    ensures binding < |c.layout| ==> (out.Exit? <==> mapStatus != VK_SUCCESS)
    ensures binding < |c.layout| ==>
              (out.Done? <==> mapStatus == VK_SUCCESS && c.layout[binding].size <= |c.memory[binding]|)
    ensures out.Done? ==>
              && binding < |c.layout|
              && c.layout[binding].size <= |c.memory[binding]|
              && out.value.0 == c.(result := c.result.(vkResult := mapStatus))
              && out.value.1 == c.memory[binding][..c.layout[binding].size]
  {
    if binding >= |c.layout| then
      Check(OUT_OF_BOUNDS, ()).PropagateFailure()
    else
      var read :- ReadVariable(c.variables[binding], c.memory[binding], c.result, mapStatus);
      Done((c.(result := read.1), read.0))
  }

  // ---------------------------------------------------------------------
  // culkanSetup
  // ---------------------------------------------------------------------

  const LAYOUT_CALLS: seq<VkCall> := [CreateDescriptorSetLayout, CreateDescriptorPool, AllocateDescriptorSets, CreatePipelineLayout]
  const PIPELINE_CALLS: seq<VkCall> := [CreateShaderModule, CreateComputePipelines, CreateCommandPool, AllocateCommandBuffers, CreateFence]

  /** What a successful setup of `c` has assembled, slot by slot. */
  predicate AssembledFor(c: Culkan, pl: Pipeline) {
    && |pl.layoutBindings| == |c.layout|
    && |pl.poolSizes| == |c.layout|
    && |pl.writes| == |c.layout|
    && |c.variables| == |c.layout|
    && (forall i :: 0 <= i < |c.layout| ==>
          && pl.layoutBindings[i].binding == i
          && pl.layoutBindings[i].descriptorType == c.layout[i].bindingType
          && pl.layoutBindings[i].descriptorCount == 1
          && pl.poolSizes[i] == PoolEntry(c.layout[i].bindingType, 1)
          && pl.writes[i].dstBinding == i
          && pl.writes[i].descriptorType == STORAGE_BUFFER
          && pl.writes[i].bufferInfo == c.variables[i].bufferInfo)
    && pl.maxSets == 1
    && pl.commandPoolFamily == c.family
    && pl.queueFamily == c.family
    && pl.dispatch == (1, 1, 1)
  }

  /**
    culkanSetup: builds the layout, pool, descriptor set and writes, loads the
    shader, builds the pipeline, records the one dispatch and creates the
    fence. Every status is checked together with the library code, so a
    library error left by an earlier operation ends the process here.
   */
  function Setup(p: Platform, c: Culkan, shader: ShaderFile): (out: Step<Culkan>)
    requires Valid(c)
    ensures !out.Undefined?
    ensures out.Done? <==>
              && c.result.ckResult == NO_ERROR
              && shader.ReadsOneItem()
              && (forall k :: 0 <= k < |LAYOUT_CALLS| ==> p.Status(LAYOUT_CALLS[k]) == VK_SUCCESS)
              && (forall k :: 0 <= k < |PIPELINE_CALLS| ==> p.Status(PIPELINE_CALLS[k]) == VK_SUCCESS)
    ensures out.Done? ==>
              && Valid(out.value)
              && out.value.assembly.Assembled?
              && AssembledFor(c, out.value.assembly.pipeline)
              && out.value.fence == Live
              && out.value.assembly.pipeline.shaderSize == shader.size
              && out.value.result == CulkanResult(VK_SUCCESS, NO_ERROR)
              && out.value == c.(result := out.value.result, assembly := out.value.assembly, fence := Live)
    ensures c.result.ckResult == NO_ERROR && !shader.ReadsOneItem()
              && (forall k :: 0 <= k < |LAYOUT_CALLS| ==> p.Status(LAYOUT_CALLS[k]) == VK_SUCCESS) ==>
              out.Exit? && out.reports == [Message(c.shaderPath), CulkanError(FILE_NOT_FOUND, "File not found")]
  {
    var r :- SetupChecks(p, c.result, c.shaderPath, shader);
    Done(c.(result := r, assembly := Assembled(Assemble(c, shader.size)), fence := Live))
  }

  /**
    The checked steps of culkanSetup in order: the layout calls, the shader
    read and the pipeline calls, starting from the session's result.
   */
  function SetupChecks(p: Platform, r: CulkanResult, path: string, shader: ShaderFile): (out: Step<CulkanResult>)
    ensures !out.Undefined?
    ensures out.Done? <==>
              && r.ckResult == NO_ERROR
              && shader.ReadsOneItem()
              && (forall k :: 0 <= k < |LAYOUT_CALLS| ==> p.Status(LAYOUT_CALLS[k]) == VK_SUCCESS)
              && (forall k :: 0 <= k < |PIPELINE_CALLS| ==> p.Status(PIPELINE_CALLS[k]) == VK_SUCCESS)
    ensures out.Done? ==> out.value == CulkanResult(VK_SUCCESS, NO_ERROR)
    ensures r.ckResult == NO_ERROR && !shader.ReadsOneItem()
              && (forall k :: 0 <= k < |LAYOUT_CALLS| ==> p.Status(LAYOUT_CALLS[k]) == VK_SUCCESS) ==>
              out == Exit([Message(path), CulkanError(FILE_NOT_FOUND, "File not found")])
  {
    var r1 :- CheckedCalls(p, LAYOUT_CALLS, r);
    var r2 :- OpenShader(path, shader, r1);
    CheckedCalls(p, PIPELINE_CALLS, r2)
  }

  /**
    The pipeline culkanSetup builds for `c` around a shader of `shaderSize`
    bytes: one layout entry and one pool entry per slot carrying the slot's
    declared type, one descriptor write per slot that always says
    STORAGE_BUFFER, and the command pool and queue on culkan->family.
   */
  function Assemble(c: Culkan, shaderSize: nat): (pl: Pipeline)
    requires Valid(c)
    ensures AssembledFor(c, pl) && pl.shaderSize == shaderSize
  {
    var layout := c.layout;
    Pipeline(
      layoutBindings := seq(|layout|, i requires 0 <= i < |layout| =>
                          LayoutEntry(i, layout[i].bindingType, 1, VK_SHADER_STAGE_COMPUTE_BIT)),
      poolSizes := seq(|layout|, i requires 0 <= i < |layout| => PoolEntry(layout[i].bindingType, 1)),
      maxSets := 1,
      writes := seq(|layout|, i requires 0 <= i < |layout| =>
                  DescriptorWrite(i, 0, 1, STORAGE_BUFFER, c.variables[i].bufferInfo)),
      shaderSize := shaderSize,
      commandPoolFamily := c.family,
      queueFamily := c.family,
      dispatch := (1, 1, 1))
  }

  /**
    The outcome of culkanOpenShader: a missing file, a short read or an
    empty file (fread then returns 0 items, not 1) sets FILE_NOT_FOUND and
    the check (with the path as message) ends the process; a successful
    read resets the library code to NO_ERROR.
   */
  function OpenShader(path: string, shader: ShaderFile, r: CulkanResult): (out: Step<CulkanResult>)
    ensures !out.Undefined?
    ensures out.Done? <==> shader.Loaded? && shader.size > 0
    ensures out.Done? ==> out.value == r.(ckResult := NO_ERROR)
    ensures out.Exit? ==>
              && |out.reports| > 0
              && out.reports[0] == Message(path)
              && CulkanError(FILE_NOT_FOUND, "File not found") in out.reports
    ensures !shader.ReadsOneItem() && r.vkResult == VK_SUCCESS ==>
              out == Exit([Message(path), CulkanError(FILE_NOT_FOUND, "File not found")])
  {
    if !shader.ReadsOneItem() then
      var missing := r.(ckResult := FILE_NOT_FOUND);
      CheckWithMessage(missing, Message(path), ()).PropagateFailure()
    else
      Done(r.(ckResult := NO_ERROR))
  }

  // ---------------------------------------------------------------------
  // culkanRun
  // ---------------------------------------------------------------------

  /** Every slot keeps its allocation size. */
  predicate SameShape(after: seq<seq<byte>>, memory: seq<seq<byte>>) {
    |after| == |memory| && forall i :: 0 <= i < |memory| ==> |after[i]| == |memory[i]|
  }

  /**
    culkanRun: submits the recorded command buffer with the session's fence,
    waits on it and destroys it. The submit and wait statuses are not
    checked. `after` is the device memory once the shader has run. Running
    without a recorded command buffer, or with a fence that no longer
    exists, is outside what Vulkan defines.
   */
  function Run(c: Culkan, after: seq<seq<byte>>): (out: Step<Culkan>)
    requires Valid(c)
    requires SameShape(after, c.memory)
    ensures !out.Exit?
    ensures out.Done? <==> c.assembly.Assembled? && c.fence == Live
    ensures out.Done? ==> Valid(out.value) && out.value == c.(memory := after, fence := Destroyed)
  {
    if c.assembly.NotAssembled? then
      Undefined("the command buffer was never recorded")
    else if c.fence != Live then
      Undefined("vkQueueSubmit and vkWaitForFences are given a fence that does not exist")
    else
      Done(c.(memory := after, fence := Destroyed))
  }
}

=== FILE: session_lemmas.dfy ===
/**
  Properties of the Culkan session that relate several operations: the
  write/read round trip, the asymmetric handling of out-of-range slots, the
  fence lifecycle across runs, and the quirks the source carries.
 */
module SessionLemmas {
  import opened Results
  import opened Capability
  import opened Session

  /** Writing a slot and reading it back yields the first sizeOfVar bytes of the source buffer. */
  lemma WriteThenRead(c: Culkan, binding: u32, src: seq<byte>)
    requires Valid(c) && binding < |c.layout| && |src| >= c.layout[binding].size
    requires c.layout[binding].size <= |c.memory[binding]|
    ensures var c1 := WriteBinding(c, binding, src, VK_SUCCESS).value;
            ReadBinding(c1, binding, VK_SUCCESS) == Done((c1, src[..c.layout[binding].size]))
  {
    var c1 := WriteBinding(c, binding, src, VK_SUCCESS).value;
    var n := c.layout[binding].size;
    assert c1.memory[binding][..n] == src[..n];
  }

  /** Writing one slot does not change what a read of another slot returns. */
  lemma WriteKeepsOtherSlots(c: Culkan, binding: u32, other: u32, src: seq<byte>)
    requires Valid(c) && binding < |c.layout| && |src| >= c.layout[binding].size
    requires other < |c.layout| && other != binding
    requires c.layout[binding].size <= |c.memory[binding]|
    requires c.layout[other].size <= |c.memory[other]|
    ensures var c1 := WriteBinding(c, binding, src, VK_SUCCESS).value;
            ReadBinding(c1, other, VK_SUCCESS).Done?
            && ReadBinding(c1, other, VK_SUCCESS).value.1 == ReadBinding(c, other, VK_SUCCESS).value.1
  {
  }

  /**
    The same out-of-range slot is a recorded, recoverable error for a write
    and the end of the process for a read.
   */
  lemma OutOfRangeAsymmetry(c: Culkan, binding: u32, src: seq<byte>, mapStatus: int)
    requires Valid(c) && binding >= |c.layout|
    ensures WriteBinding(c, binding, src, mapStatus).Done?
    ensures WriteBinding(c, binding, src, mapStatus).value.memory == c.memory
    ensures WriteBinding(c, binding, src, mapStatus).value.result == CulkanResult(VK_ERROR_UNKNOWN, OUT_OF_BOUNDS_BINDING)
    ensures ReadBinding(c, binding, mapStatus).Exit?
  {
  }

  /**
    The error a write to an out-of-range slot leaves behind is picked up by
    the next culkanSetup, whose first check ends the process.
   */
  lemma OutOfRangeWriteFailsNextSetup(p: Platform, c: Culkan, binding: u32, src: seq<byte>, mapStatus: int, shader: ShaderFile)
    requires Valid(c) && binding >= |c.layout|
    ensures Setup(p, WriteBinding(c, binding, src, mapStatus).value, shader).Exit?
  {
  }

  /**
    A successful setup arms exactly one run: the run destroys the fence, so a
    second run without a new setup hands Vulkan a destroyed fence (as the
    repeated runs of the benchmark driver do), while a new setup re-arms.
   */
  lemma FenceLifecycle(p: Platform, c: Culkan, shader: ShaderFile, after1: seq<seq<byte>>, after2: seq<seq<byte>>)
    requires Valid(c) && Setup(p, c, shader).Done?
    requires SameShape(after1, c.memory) && SameShape(after2, after1)
    ensures var armed := Setup(p, c, shader).value;
            && armed.fence == Live
            && Run(armed, after1).Done?
            && Run(armed, after1).value.fence == Destroyed
            && Run(Run(armed, after1).value, after2).Undefined?
  {
  }

  /** Running after a fresh setup always succeeds, whatever happened to the fence before. */
  lemma SetupRearms(p: Platform, c: Culkan, shader: ShaderFile, after: seq<seq<byte>>)
    requires Valid(c)
    requires Setup(p, c, shader).Done? && SameShape(after, c.memory)
    ensures Run(Setup(p, c, shader).value, after) == Done(c.(result := CulkanResult(VK_SUCCESS, NO_ERROR),
                                                              assembly := Setup(p, c, shader).value.assembly,
                                                              memory := after,
                                                              fence := Destroyed))
  {
  }

  /** A run straight after culkanInit has no recorded command buffer. */
  lemma RunBeforeSetup(p: Platform, layout: seq<Binding>, path: string, inv: Invocations,
                       answers: seq<MemoryRequirements>, initial: CulkanResult, after: seq<seq<byte>>)
    requires p.Valid() && |layout| < 0x1_0000_0000 && |answers| == |layout|
    requires Init(p, layout, path, inv, answers, initial).Done?
    requires SameShape(after, Init(p, layout, path, inv, answers, initial).value.memory)
    ensures Run(Init(p, layout, path, inv, answers, initial).value, after).Undefined?
  {
  }

  /**
    Descriptor writes always say STORAGE_BUFFER, so for a uniform slot the
    write disagrees with the layout entry built from the declared type.
   */
  lemma UniformSlotWrittenAsStorage(p: Platform, c: Culkan, shader: ShaderFile, i: nat)
    requires Valid(c) && Setup(p, c, shader).Done?
    requires i < |c.layout| && c.layout[i].bindingType == UNIFORM_BUFFER
    ensures var pl := Setup(p, c, shader).value.assembly.pipeline;
            pl.writes[i].descriptorType != pl.layoutBindings[i].descriptorType
  {
  }

  /**
    The device queue is created on the first compute family, but the
    command pool and the queue lookup use culkan->family, which stays 0: the
    two differ whenever family 0 cannot do compute.
   */
  lemma QueueFamilyMismatch(p: Platform, layout: seq<Binding>, path: string, inv: Invocations,
                            answers: seq<MemoryRequirements>, initial: CulkanResult, shader: ShaderFile)
    requires p.Valid() && |layout| < 0x1_0000_0000 && |answers| == |layout|
    requires Init(p, layout, path, inv, answers, initial).Done?
    requires Setup(p, Init(p, layout, path, inv, answers, initial).value, shader).Done?
    requires !SupportsCompute(p.physicalDevices[0].queueFamilyFlags, 0)
    ensures var c := Init(p, layout, path, inv, answers, initial).value;
            var pl := Setup(p, c, shader).value.assembly.pipeline;
            pl.commandPoolFamily == 0 && pl.queueFamily == 0 && c.deviceQueueFamily != 0
  {
  }

  /**
    The invocation product is compared modulo 2^32: a request of
    2048 x 2048 x 2048 invocations wraps to 0 and passes a limit of 1024.
   */
  lemma InvocationProductWraps(r: CulkanResult)
    ensures RequestedInvocations(Invocations(2048, 2048, 2048)) == 0
    ensures CheckInvocations(1024, Invocations(2048, 2048, 2048), r) == Done(r)
  {
  }

  /** A request within 32 bits is compared exactly: 1024 x 1 x 1 passes a limit of 1024, 1025 does not. */
  lemma InvocationLimitExample(r: CulkanResult)
    ensures CheckInvocations(1024, Invocations(1024, 1, 1), r) == Done(r)
    ensures CheckInvocations(1024, Invocations(1025, 1, 1), r).Exit?
  {
  }

  /** A heap h smaller than the requirement of some binding b leaves NOT_ENOUGH_MEMORY, which the first check of culkanSetup turns fatal. */
  lemma ShortHeapFailsSetup(p: Platform, layout: seq<Binding>, path: string, inv: Invocations,
                            answers: seq<MemoryRequirements>, initial: CulkanResult, shader: ShaderFile, h: nat, b: nat)
    requires p.Valid() && |layout| < 0x1_0000_0000 && |answers| == |layout|
    requires Init(p, layout, path, inv, answers, initial).Done?
    requires |p.physicalDevices| > 0
    requires h < |p.physicalDevices[0].heapSizes| && b < |answers|
    requires p.physicalDevices[0].heapSizes[h] < answers[b].size
    ensures Setup(p, Init(p, layout, path, inv, answers, initial).value, shader).Exit?
  {
  }

  /** A garbage library code in the never-initialised result ends culkanInit at its first check. */
  lemma UninitialisedResultAbortsInit(p: Platform, layout: seq<Binding>, path: string, inv: Invocations,
                                      answers: seq<MemoryRequirements>, garbage: int)
    requires p.Valid() && |layout| < 0x1_0000_0000 && |answers| == |layout|
    requires garbage != NO_ERROR
    ensures Init(p, layout, path, inv, answers, CulkanResult(VK_SUCCESS, garbage)).Exit?
  {
  }

  /**
    A one-device platform on which every call succeeds: culkanInit gets
    through with one storage binding, and culkanSetup gets through with a
    non-empty shader but stops at the shader read with an empty one.
   */
  lemma TypicalSession()
    ensures var dev := Device([VK_MEMORY_PROPERTY_HOST_VISIBLE_BIT], [4096], [VK_QUEUE_COMPUTE_BIT], 1024);
            var p := Platform(map[], [dev]);
            var init := Init(p, [Binding(64, STORAGE_BUFFER)], "shader.spv", Invocations(64, 1, 1),
                             [MemoryRequirements(64, 1)], CulkanResult(VK_SUCCESS, NO_ERROR));
            && init.Done?
            && init.value.result == CulkanResult(VK_SUCCESS, NO_ERROR)
            && Setup(p, init.value, Loaded(100)).Done?
            && Setup(p, init.value, Loaded(0)).Exit?
  {
    var dev := Device([VK_MEMORY_PROPERTY_HOST_VISIBLE_BIT], [4096], [VK_QUEUE_COMPUTE_BIT], 1024);
    var p := Platform(map[], [dev]);
    assert SupportsCompute(dev.queueFamilyFlags, 0);
    assert OpensDevice(p, Invocations(64, 1, 1), CulkanResult(VK_SUCCESS, NO_ERROR));
  }
}

=== FILE: tiling.dfy ===
/**
  The tile arithmetic of the cache-blocked matrix products
  (src/matrix_product.hpp).

  Both blocked variants launch (m + blockSize) / blockSize row tiles; tile t
  covers rows [t*blockSize, min(t*blockSize + blockSize, m)). The
  row-and-column variant also walks column tiles bj = 0, blockSize, ... while
  bj < n, each covering [bj, min(bj + blockSize, n)).
 */
module Tiling {

  function Min(a: int, b: int): int {
    if a < b then a else b
  }

  /** The number of row tiles launched for m rows. */
  function TileCount(m: nat, blockSize: nat): nat
    requires blockSize >= 1
  {
    (m + blockSize) / blockSize
  }

  /** Index x lies in tile t of a dimension of the given extent. */
  predicate InTile(extent: nat, blockSize: nat, t: nat, x: nat) {
    t * blockSize <= x < Min(t * blockSize + blockSize, extent)
  }

  lemma MulMonotone(a: int, b: int, c: nat)
    ensures a <= b ==> a * c <= b * c
  {
  }

  /** The only t with t*bs <= x < t*bs + bs is x / bs. */
  lemma QuotientUnique(x: nat, blockSize: nat, t: nat)
    requires blockSize >= 1
    requires t * blockSize <= x < t * blockSize + blockSize
    ensures t == x / blockSize
  {
    var q := x / blockSize;
    assert q * blockSize <= x < q * blockSize + blockSize;
    MulMonotone(t + 1, q, blockSize);
    MulMonotone(q + 1, t, blockSize);
    assert (t + 1) * blockSize == t * blockSize + blockSize;
    assert (q + 1) * blockSize == q * blockSize + blockSize;
  }

  /** (m + bs) / bs is one more than m / bs: there is always a last tile starting at (m / bs) * bs. */
  lemma {:induction false} TileCountIsQuotientPlusOne(m: nat, blockSize: nat)
    requires blockSize >= 1
    ensures TileCount(m, blockSize) == m / blockSize + 1
  {
    var q := m / blockSize;
    assert q * blockSize <= m < q * blockSize + blockSize;
    assert (q + 1) * blockSize == q * blockSize + blockSize;
    QuotientUnique(m + blockSize, blockSize, q + 1);
  }

  /** Every launched tile starts at or before the end of the rows. */
  lemma {:induction false} TileStartInRange(m: nat, blockSize: nat, t: nat)
    requires blockSize >= 1 && t < TileCount(m, blockSize)
    ensures t * blockSize <= m
  {
    TileCountIsQuotientPlusOne(m, blockSize);
    var q := m / blockSize;
    MulMonotone(t, q, blockSize);
    assert q * blockSize <= m;
  }

  /** The launched tiles reach past the last row. */
  lemma {:induction false} TilesCoverRows(m: nat, blockSize: nat)
    requires blockSize >= 1
    ensures TileCount(m, blockSize) * blockSize > m
  {
    TileCountIsQuotientPlusOne(m, blockSize);
    var q := m / blockSize;
    assert (q + 1) * blockSize == q * blockSize + blockSize;
  }

  /** The tile of an index below the extent is one of the launched tiles. */
  lemma {:induction false} QuotientBelowTileCount(extent: nat, blockSize: nat, x: nat)
    requires blockSize >= 1 && x < extent
    ensures x / blockSize < TileCount(extent, blockSize)
  {
    var q := x / blockSize;
    assert q * blockSize <= x;
    TileCountIsQuotientPlusOne(extent, blockSize);
    var qe := extent / blockSize;
    assert extent < qe * blockSize + blockSize;
    MulMonotone(qe + 1, q, blockSize);
    assert (qe + 1) * blockSize == qe * blockSize + blockSize;
  }

  /**
    Every index below the extent lies in exactly one launched tile, the
    tile x / bs.
   */
  lemma {:induction false} InExactlyOneTile(extent: nat, blockSize: nat, x: nat)
    requires blockSize >= 1 && x < extent
    ensures x / blockSize < TileCount(extent, blockSize)
    ensures InTile(extent, blockSize, x / blockSize, x)
    ensures forall t :: InTile(extent, blockSize, t, x) ==> t == x / blockSize
  {
    var q := x / blockSize;
    assert q * blockSize <= x < q * blockSize + blockSize;
    QuotientBelowTileCount(extent, blockSize, x);
    forall t | InTile(extent, blockSize, t, x)
      ensures t == q
    {
      QuotientUnique(x, blockSize, t);
    }
  }

  /**
    A launched tile is empty exactly when it is the last one and the block
    size divides the extent: the (m + bs) / bs count overshoots by one tile
    in that case.
   */
  lemma {:induction false} EmptyTileIsTrailing(m: nat, blockSize: nat, t: nat)
    requires blockSize >= 1 && t < TileCount(m, blockSize)
    ensures Min(t * blockSize + blockSize, m) <= t * blockSize <==>
              (t == TileCount(m, blockSize) - 1 && m % blockSize == 0)
  {
    TileStartInRange(m, blockSize, t);
    TileCountIsQuotientPlusOne(m, blockSize);
    var q := m / blockSize;
    assert m == q * blockSize + m % blockSize;
    if t * blockSize == m {
      QuotientUnique(m, blockSize, t);
    }
  }

  /**
    The row-and-column tiling puts every cell (i, j) of an m x n matrix in
    exactly one pair of tiles: row tile i / bs and column tile j / bs.
   */
  lemma {:induction false} CellInExactlyOneTile(m: nat, n: nat, blockSize: nat, i: nat, j: nat)
    requires blockSize >= 1 && i < m && j < n
    ensures InTile(m, blockSize, i / blockSize, i) && InTile(n, blockSize, j / blockSize, j)
    ensures forall t, u :: InTile(m, blockSize, t, i) && InTile(n, blockSize, u, j) ==>
              t == i / blockSize && u == j / blockSize
  {
    InExactlyOneTile(m, blockSize, i);
    InExactlyOneTile(n, blockSize, j);
  }
}
